=== FILE: README.md ===
# Support hub front end: decision logic in Dafny

This project models the decision logic of the support-hub web client: the
ticket form's attachment staging and submission, the authentication
provider's session state machine, the `humanize` label formatter, the chip
colour tables, the ticket card's derived values, the ticket page's comment
and assignment rules, and the response handling of the login, signup and
home pages. Everything is a total function over immutable records and
sequences; browser state (the token cookie, local storage, the online flag,
the page protocol, the clock) is a plain field or parameter, and every
`enqueueSnackbar` call is a `Ui.Notice` value in an output sequence.

Modules follow the source files:

| module | file | models |
|---|---|---|
| `Js` | `js.dfy` | JavaScript conventions: optional values, truthiness, `String(n)`, `trim` |
| `Ui` | `ui.dfy` | snackbar notices |
| `Models` | `models.dfy` | the user record the API returns |
| `Utils` | `utils.dfy` | `humanize` |
| `Chip` | `chip.dfy` | `NumberChip`, `StatusChip`, `PriorityChip` |
| `TicketCard` | `ticket_card.dfy` | the card's `computed` values and chip labels |
| `Form` | `form.dfy` | attachment staging, fields, submit gate, submission |
| `AuthContext` | `auth_context.dfy` | session state, `isAuthError`, reconciliation, login, logout, storage events, revalidation and refresh gates |
| `AuthResponse` | `auth_response.dfy` | the login/signup completion decision |
| `Login`, `Signup` | `login.dfy`, `signup.dfy` | submit gates and completion callbacks |
| `TicketPage` | `ticket_page.dfy` | comment permission, response form, comment guard, assign button |
| `Home` | `home.dfy` | customer check, heading, modal, create-ticket callback |

The staging rule is stated twice: `Form.Add` is the declarative rule
(screen each candidate against the keys staged before the call, then cap at
the remaining capacity), and `Form.ValidateAndAdd` is the loop as written,
proved equal to it. Files are identified by the tuple (name, size,
lastModified); `Form.KeyStringInjective` shows that the component's string
key `${name}__${size}__${lastModified}` identifies the same files, because
the two numerals never contain `_`.

The model follows the code where a reader might expect otherwise: a batch holding the same file twice stages it twice (deduplication is
only against files staged before the call); removal is by index; a
transient fetch failure leaves the session untouched with no generation
counter, debounce or discarding of stale fetches; an authentication failure
clears the session without writing the cross-tab marker.

## Model

| member | source | states |
|---|---|---|
| `Utils.ReplaceUnderscores` | src/utils/function.js:3 | every `_` becomes a space and nothing else changes; length is kept |
| `Utils.CapitalizeWords` | src/utils/function.js:4 | the left-to-right scan uppercases exactly the `\w` characters whose left neighbour is not a word character (or that start the string) |
| `Utils.ToUpper` | src/utils/function.js:4 | `toUpperCase` of a word character: a lowercase ASCII letter becomes its own capital (same offset from `A` as from `a`), every other character is kept, and word characters stay word characters |
| `Utils.Humanize` | src/utils/function.js:1-5 | output length equals input length |
| `Utils.HumanizeNoUnderscore` | src/utils/function.js:3 | the output contains no `_` |
| `Utils.HumanizeCharwise` | src/utils/function.js:2-4 | each character is kept, or `_` became a space, or a lowercase letter became uppercase; uppercase letters are never lowered |
| `Utils.HumanizeUppercasesWordStarts` | src/utils/function.js:4 | a character at a word boundary of the space-replaced text is uppercased, and a character changes in the second pass iff it is a lowercase letter at such a boundary |
| `Utils.HumanizeBilling` | src/test/components/TicketCard.test.jsx:33 | "billing" becomes "Billing" |
| `Utils.HumanizeInProgress` | src/utils/function.js:2-4 | "in_progress" becomes "In Progress" |
| `Utils.HumanizeIdempotent` | src/utils/function.js:2-4 | humanising twice equals humanising once |
| `Chip.StatusStyle` | src/components/Chip.jsx:15-38 | the neutral "bg-gray-200" class is chosen exactly for labels outside the six known statuses |
| `Chip.PriorityStyle` | src/components/Chip.jsx:42-59 | the neutral class is chosen exactly for labels outside low/normal/high/urgent |
| `TicketCard.NumberChipNeverBlank` | src/components/TicketCard.jsx:58 | the card's number chip is never blank: it shows the number's text when the number is truthy and "#" otherwise |
| `Chip.NumberChip` | src/components/Chip.jsx:11-13 | the label is shown as given, on the fixed neutral style "bg-gray-200 text-gray-800" |
| `Chip.StatusChip` | src/components/Chip.jsx:15-40 | the text is the humanised label (same length, no `_`) and the class is the status table's entry for the raw label, neutral exactly for unknown labels |
| `Chip.PriorityChip` | src/components/Chip.jsx:42-61 | the text is the humanised label (same length, no `_`) and the class is the priority table's entry for the raw label, neutral exactly for unknown labels |
| `Chip.StylesDistinct` | src/components/Chip.jsx:17-58 | the six status classes are pairwise distinct, and so are the four priority classes |
| `Chip.MediumPriorityIsNeutral` | src/components/Chip.jsx:57-58 | "medium" gets the neutral class |
| `Chip.StatusChipInProgress` | src/components/Chip.jsx:21-23 | "in_progress" shows "In Progress" on "bg-blue-500 text-white" |
| `TicketCard.AgentName` | src/components/TicketCard.jsx:36 | full name if non-empty, else first name if non-empty, else "Unassigned"; never empty |
| `TicketCard.HrefDistinct` | src/components/TicketCard.jsx:37 | the link is "#" exactly when the id is falsy, and two non-zero numeric ids give the same link only when they are equal |
| `TicketCard.HrefExamples` | src/components/TicketCard.jsx:37 | ids 0, "" and null give "#", id 1 gives "/ticket/1" |
| `TicketCard.CategoryLabel` | src/components/TicketCard.jsx:35 | a label exists iff the category does (a missing one throws), and it is the humanised category, free of `_` |
| `TicketCard.Labels` | src/components/TicketCard.jsx:58-60 | chip labels are always truthy and keep truthy number, status and priority; a falsy number becomes "#" and a missing or empty status or priority becomes "unknown" |
| `TicketCard.Compute` | src/components/TicketCard.jsx:10-40 | as written the card throws exactly when the category is missing, which includes a missing ticket; whenever it renders, its values are those of `TicketCard.ComputeCorrected` |
| `TicketCard.ComputeCorrected` | src/components/TicketCard.jsx:25-40 | attachment count is the array's length or 0, the category label is the humanised category or "" when missing, the agent name is never empty, and the link is "#" exactly for a falsy id and "/ticket/" followed by the id's text otherwise, so that by `TicketCard.HrefDistinct` distinct numeric ids get distinct links |
| `TicketCard.MissingFieldsRender` | src/test/components/TicketCard.test.jsx:38-50 | the test's ticket with missing fields throws as written; corrected, it renders "#", an empty category, "Unassigned" and links to "#" |
| `TicketCard.SampleCard` | src/test/components/TicketCard.test.jsx:8-36 | the test's ticket renders and gives 2 attachments, "Billing", "Agent Smith", "/ticket/1" |
| `Form.KeyStringInjective` | src/components/Form.jsx:50-56 | two files have equal string keys iff their (name, size, lastModified) agree |
| `Form.ScreenedMembers` | src/components/Form.jsx:55-70 | a candidate survives the loop iff it is in the batch and fails no check |
| `Form.ScreenAppend` | src/components/Form.jsx:55-70 | the loop works candidate by candidate: a batch's survivors and notices are those of its first part followed by those of the rest, so input order is kept |
| `Form.ScreenNotices` | src/components/Form.jsx:55-68 | every candidate is either kept or reported, so notices and survivors together number the batch |
| `Form.NoticesNameFailures` | src/components/Form.jsx:55-68 | every failing candidate is reported with its first failure (duplicate, then size, then type), and every notice reports a failing candidate of the batch |
| `Form.RemainingSlots` | src/components/Form.jsx:39 | while at most 3 files are staged the free slots are 3 minus the staged count, so non-negative, and zero exactly when 3 are |
| `Form.Add` | src/components/Form.jsx:46-83 | staged files stay first and in order; exactly min(passing candidates, max(0, remaining slots)) files are appended, the first passing ones in input order; when all passing candidates fit they are all staged and the notices are exactly the per-file ones; otherwise the per-file notices are followed by at most one capacity notice; at most 3 stays at most 3 |
| `Form.ValidateAndAdd` | src/components/Form.jsx:46-83 | the loop with its early `continue`s and the capacity cap computes exactly `Form.Add` |
| `Form.SingleCandidate` | src/components/Form.jsx:55-80 | one candidate: a staged key gives "already added" whatever its size or type; else over 10 MiB gives "too large"; else a bad type gives "not allowed"; else it is staged if there is room, else "Limit is 3 files" |
| `Form.SizeBoundaryExact` | src/components/Form.jsx:61-64 | exactly 10 MiB is accepted, one byte more is rejected as too large |
| `Form.SameBatchDuplicatesKept` | src/components/Form.jsx:50-69 | the same passing file twice in one batch is staged twice |
| `Form.DistinctKeysNotInvariant` | src/components/Form.jsx:50-57 | an add can stage two files with the same key |
| `Form.CapacityOverflow` | src/components/Form.jsx:72-80 | on overflow with no slot left nothing is staged and the limit is reported; otherwise the first 3 - staged passing files are staged with an "Only N more" warning |
| `Form.OneMoreText` | src/components/Form.jsx:78 | the warning for one slot reads "Only 1 more file allowed" |
| `Form.TwoStagedThreeIncoming` | src/components/Form.jsx:72-82 | two staged plus three passing candidates stages only the first candidate and warns "Only 1 more file allowed" |
| `Form.ScreenAllPass` | src/components/Form.jsx:55-70 | a batch whose every candidate passes all checks is kept whole, in order, with no notice |
| `Form.FillLastSlot` | src/components/Form.jsx:72-82 | with one slot left and at least two passing candidates, exactly the first is staged and the only notice is "Only 1 more file allowed" |
| `Form.RemoveFileAt` | src/components/Form.jsx:90-92 | removes exactly the element at the index and keeps the rest in order; an index outside the list removes nothing |
| `Form.ClearAll` | src/components/Form.jsx:94 | the list becomes empty |
| `Form.RemoveFreesSlot` | src/components/Form.jsx:39-92 | removing a staged file frees one slot |
| `Form.StagingStaysBounded` | src/components/Form.jsx:46-94 | any sequence of adds, removals and clears keeps at most 3 staged files |
| `Form.HandleChange` | src/components/Form.jsx:41-44 | the named field takes the value and the other fields are unchanged |
| `Form.SubmitDisabled` | src/components/Form.jsx:128-129 | disabled iff loading or some field is empty |
| `Form.HandleSubmit` | src/components/Form.jsx:96-105 | the fields and files are sent; on success all fields and files are cleared and no notice is shown; on failure nothing changes and "Failed to submit" is reported |
| `Form.SubmitResetsForm` | src/test/components/Form.test.jsx:110-141 | after a successful submission submit is disabled again and all 3 slots are free |
| `Js.TrimEmptyIff` | src/pages/Ticket.jsx:45 | `trim()` gives "" iff every character is ECMAScript whitespace |
| `AuthContext.Init` | src/contexts/AuthContext.jsx:45-55 | both flags say whether a token cookie is set; the user and its stored copy are the parsed stored user |
| `AuthContext.EffectiveStatus` | src/contexts/AuthContext.jsx:33 | a non-zero status code wins; a missing or 0 status code falls back to the response status; without a network error there is no status |
| `AuthContext.AnyAuthCode` | src/contexts/AuthContext.jsx:35-39 | true iff some GraphQL error is coded UNAUTHENTICATED or FORBIDDEN |
| `AuthContext.IsAuthError` | src/contexts/AuthContext.jsx:30-40 | no error is never an auth error; otherwise true iff the effective status is 401 or 403 or some GraphQL error has an auth code |
| `AuthContext.StatusCodeShadowsResponseStatus` | src/contexts/AuthContext.jsx:33-34 | a 500 status code hides a 401 response status; a 0 status code defers to it |
| `AuthContext.AsWrittenAgreesWithoutData` | src/contexts/AuthContext.jsx:65-88 | when the fetch brings no user, the effect as written and the corrected effect give the same session |
| `AuthContext.AsWrittenAuthErrorWinsOverData` | src/contexts/AuthContext.jsx:73-87 | as written, user data arriving with an authentication error signs the tab out; the corrected effect adopts the user |
| `AuthContext.ReconcileAsWritten` | src/contexts/AuthContext.jsx:65-88 | for every result the current-user query produces, the effect behaves as if no data had arrived |
| `AuthContext.AsWrittenIgnoresFetchedUser` | src/contexts/AuthContext.jsx:73-77 | a tab holding a token stays unauthenticated although the fetch returned a user; the corrected effect signs it in |
| `AuthContext.Reconcile` | src/contexts/AuthContext.jsx:65-88 | (corrected effect, see Findings) without a token: unauthenticated, no user, no stored user; with a token and fetched user data: authenticated and both copies are that user, with the cookie, `hasToken` and the marker untouched |
| `AuthContext.ReconcileWithoutToken` | src/contexts/AuthContext.jsx:66-70 | (stated of the corrected effect) without a token the outcome ignores the query result and keeps the cookie and the marker |
| `AuthContext.DataWinsOverError` | src/contexts/AuthContext.jsx:73-78 | (corrected effect, see Findings) fetched user data makes any simultaneous error irrelevant |
| `AuthContext.TransientErrorKeepsSession` | src/contexts/AuthContext.jsx:80-88 | (stated of the corrected effect) no data and an absent or non-auth error leaves every field unchanged |
| `AuthContext.AuthErrorActsAsLogout` | src/contexts/AuthContext.jsx:81-87 | (stated of the corrected effect) an auth error clears cookie, flags and users as logout does, without writing the marker |
| `AuthContext.ReconcileIdempotent` | src/contexts/AuthContext.jsx:65-88 | (stated of the corrected effect) re-running the effect on its own result changes nothing |
| `AuthContext.ReconcileSettles` | src/contexts/AuthContext.jsx:65-88 | (stated of the corrected effect) afterwards the tab is authenticated only with a token and holds no user without one |
| `AuthContext.Login` | src/contexts/AuthContext.jsx:125-132 | the cookie holds the token for 1 day, secure iff the protocol is "https:", SameSite lax; both flags set; user and stored copy are the given user; the marker is written |
| `AuthContext.Logout` | src/contexts/AuthContext.jsx:134-141 | the cookie is removed, both flags false, no user, no stored user, the marker is written |
| `AuthContext.LoginLogoutForgetPriorState` | src/contexts/AuthContext.jsx:125-141 | login and logout results do not depend on the prior state; a second logout changes only the marker |
| `AuthContext.OnStorage` | src/contexts/AuthContext.jsx:116-123 | other keys change nothing; the auth event key sets `hasToken` to whether the shared cookie holds a token |
| `AuthContext.ShareStorage` | src/contexts/AuthContext.jsx:125-141 | a sibling's write replaces the shared cookie, stored user and event marker and leaves this tab's flags and user alone |
| `AuthContext.CrossTabLogout` | src/contexts/AuthContext.jsx:116-141 | (stated of the corrected effect) after a sibling logs out, the storage event and the effect sign this tab out whatever its query reports |
| `AuthContext.CrossTabLogin` | src/contexts/AuthContext.jsx:116-132 | (corrected effect, see Findings) after a sibling logs in, the storage event sets `hasToken` and a fetched user signs this tab in |
| `AuthContext.RevalidationRefetches` | src/contexts/AuthContext.jsx:91-114 | a refetch happens iff the tab is authenticated, online, and the trigger is a focus or the page becoming visible |
| `AuthContext.RefreshFollowsQuery` | src/contexts/AuthContext.jsx:143-146 | `refresh` refetches exactly when the current-user query is not skipped (`skip: !hasToken`); never after a logout or an authentication failure, always after a login, and always for a settled authenticated tab |
| `AuthContext.TransientRevalidationFailure` | src/contexts/AuthContext.jsx:80-114 | (stated of the corrected effect) a revalidation that fails transiently leaves the authenticated session unchanged |
| `AuthContext.RunStaysCoherent` | src/contexts/AuthContext.jsx:45-146 | over any run of one tab's own events (fetch results reconciled as written, logins, logouts, storage events received, cookie expiry), the user equals its stored copy and a token cookie is never set while `hasToken` is false |
| `AuthContext.RunTracksCookie` | src/contexts/AuthContext.jsx:45-146 | over runs of one tab's own fetches (reconciled as written), logins with non-empty tokens, logouts and storage events without an expiry, `hasToken` says exactly whether a token cookie is set |
| `AuthContext.ExpiryLeavesStaleFlag` | src/contexts/AuthContext.jsx:15-23 | the one-day cookie expires without a storage event, so the tab, which re-reads the cookie only on an auth-event storage write, stays authenticated with `hasToken` set and no cookie, until a fetch failing with an authentication error signs it out |
| `AuthContext.SiblingLoginBreaksCoherent` | src/contexts/AuthContext.jsx:65-132 | a sibling's login leaves a signed-out tab with a token cookie while `hasToken` is false and a stored user it does not hold; after the storage event the effect as written keeps it incoherent unless the fetch is an authentication failure, while the corrected effect restores both invariants once a user is fetched |
| `AuthContext.SiblingLogoutRecovers` | src/contexts/AuthContext.jsx:65-141 | a sibling's logout leaves the tab holding a user the storage no longer has; the storage event and the next reconciliation, as written or corrected, restore both invariants |
| `AuthContext.InitCoherent` | src/contexts/AuthContext.jsx:45-55 | initially `hasToken` says exactly whether a token cookie is set and the user equals its stored copy |
| `Ui.ErrorNotices` | src/pages/Login.jsx:21 | one error notice per message, in order |
| `AuthResponse.Classify` | src/pages/Login.jsx:18-32 | non-empty errors give one notice per error in order; otherwise a missing token or user gives one "unexpected" notice; `login` is called iff there are no errors and both token and user are present, and then it is followed by navigation to "/" with replace |
| `Login.GuardMatchesButton` | src/pages/Login.jsx:34-98 | the submit handler fires the mutation exactly when the button, disabled while loading or while a credential is empty, is enabled, and then both credentials are non-empty |
| `Login.CompleteResponseSignsIn` | src/pages/Login.jsx:30-31 | a complete response calls `login` then navigates, and the provider is then authenticated as that user with a token cookie |
| `Login.ErrorsPrecedeToken` | src/pages/Login.jsx:19-23 | a payload with errors and a token never logs in |
| `Signup.GuardMatchesButton` | src/pages/Signup.jsx:47-143 | the submit handler fires the mutation exactly when the button is enabled, and then all four fields are non-empty |
| `Signup.MissingPayloadIsUnexpected` | src/pages/Signup.jsx:36-41 | no payload gives exactly one "Unexpected signup response" |
| `TicketPage.ShowsResponseForm` | src/pages/Ticket.jsx:38-125 | the form shows iff the ids match or an agent has replied |
| `TicketPage.MissingIdsMatch` | src/pages/Ticket.jsx:38 | an unassigned ticket and a user without id count as a match |
| `TicketPage.NullIdDoesNotMatchMissing` | src/pages/Ticket.jsx:38 | a null user id does not match a missing assignee |
| `TicketPage.SubmitCommentCalls` | src/pages/Ticket.jsx:41-50 | `addComment` runs at most once, and not at all iff the draft trims to "" |
| `TicketPage.SubmitSendsNonBlank` | src/pages/Ticket.jsx:45-46 | the comment is sent iff some character is not whitespace |
| `TicketPage.OnCommentAdded` | src/pages/Ticket.jsx:30-36 | the draft becomes "" and nothing else changes, so a second submit sends nothing |
| `TicketPage.AssignButtonLifecycle` | src/pages/Ticket.jsx:184-205 | the button is never offered to a customer or a signed-out visitor; once the ticket is assigned to the agent, the button is gone and the agent may comment |
| `Home.HeadingMatchesButton` | src/pages/Home.jsx:17-54 | the "New Ticket" button shows exactly under the customer heading "Your Support Tickets", and otherwise the heading is "Support Tickets" |
| `Home.OpenModal` | src/pages/Home.jsx:20 | the modal is open |
| `Home.CloseModal` | src/pages/Home.jsx:21 | the modal is closed |
| `Home.CreateTicketCallback` | src/pages/Home.jsx:23-32 | a ticket gives one success notice and closes the modal; otherwise one error notice per error, in order, with the modal unchanged; a payload with neither ticket nor errors list throws; no payload changes nothing |
| `Home.ModalRoundTrip` | src/pages/Home.jsx:20-32 | open then success closes the modal; open then errors keeps it open with one notice per error |

## Left out

- `formatFileSize` (src/components/Form.jsx:287-295): floating-point `Math.log`, `Math.pow` and `toFixed`.
- JSX rendering, object-URL previews, drag highlight state, snackbar styling and the form's constant option lists.
- Cookie, local-storage and event-listener plumbing and React's effect scheduling; in particular `validateAndAdd` validates against the rendered list but appends to `prev`, which coincide in a sequential model.
- JSON parsing of the stored user: a value that fails to parse is given to `AuthContext.Init` as None.
- The GraphQL hooks and clients and their `refetchQueries` lists: configuration of a library that is not part of this model.
- Date formatting with date-fns on the card and the ticket page.
- `Modal`, `Tooltip`, `Navbar`, `ProtectedRoute`, `App`, `main`, `CommentCard`: routing and presentation.
- The synchronous `catch` branches around `loginMutation()` and `signupMutation()`, which show "Network error. Try again.": they fire only if the hook throws before returning a promise, which the hooks' library decides.
- The synchronous `catch` around `addComment()` (src/pages/Ticket.jsx:47-48): it only logs the error to the console, an effect the model does not represent.
- The `loading` value the provider passes through from the query hook.
- Numbers are shown as plain decimals: JavaScript's exponent form for magnitudes of 1e21 and above is not modelled.
- Strings are sequences of Unicode scalar values, not UTF-16 code units; the whitespace set of `trim` lies in the Basic Multilingual Plane, so this does not change any modelled decision.
- `Utils.Humanize`: its own contract states only the length; the character-level properties are the lemmas after it.
- `TicketCard.CategoryLabel`: a missing category, where `humanize(undefined)` throws during render, is None rather than a modelled exception; `TicketCard.Compute` likewise returns None for a throwing render.
- `AuthContext.RunTracksCookie`: the exact correspondence between `hasToken` and the cookie is promised only for runs without a cookie expiry, because the code never re-reads the cookie when it expires; `AuthContext.ExpiryLeavesStaleFlag` shows the gap and `AuthContext.RunStaysCoherent` states what survives it.
- `AuthContext.RunStaysCoherent`: a run is one tab's own events; a sibling tab writing the shared cookie and stored user is not a step of it, because such a write breaks the invariant (`AuthContext.SiblingLoginBreaksCoherent`) and the tab recovers only after the storage event and a reconciliation (`AuthContext.SiblingLogoutRecovers`, and for a login only with the corrected effect).
- `AuthContext.RunTracksCookie`: likewise promised only for one tab's own events; a sibling's login sets a token cookie while this tab's `hasToken` is still false (`AuthContext.SiblingLoginBreaksCoherent`).

## Findings

| source | as written | input that shows it | evidently intended | confidence | as-written member | corrected member |
|---|---|---|---|---|---|---|
| src/contexts/AuthContext.jsx:73-77 | the effect reads the fetched user from `data.getCurrentUser` | a successful current-user fetch, whose data is `{ currentUser: u }` because the query selects `currentUser` (src/graphql/queries/getCurrentUser.js:5), with a tab holding a token but not yet authenticated | read `data.currentUser`, adopt `u` and authenticate | high; not executed | `AuthContext.ReconcileAsWritten`, `AuthContext.AsWrittenIgnoresFetchedUser`, `AuthContext.AsWrittenAuthErrorWinsOverData` | `AuthContext.Reconcile`, `AuthContext.DataWinsOverError`, `AuthContext.CrossTabLogin` |
| src/components/TicketCard.jsx:35 | `humanize(category)` calls `.replace` on the category, which throws when it is missing | the ticket `{ id: null, title: '', description: '', number: null }` of src/test/components/TicketCard.test.jsx:39, which the test expects to render "Category:" | show an empty category label | high; not executed | `TicketCard.Compute`, `TicketCard.MissingFieldsRender` | `TicketCard.ComputeCorrected`, `TicketCard.MissingFieldsRender` |

=== FILE: auth_context.dfy ===
/** The authentication provider: a tab's session state (token cookie,
    `hasToken`, `isAuthenticated`, `user`, the stored copy of the user and
    the cross-tab event marker) and the pure transitions the provider
    applies to it. Browser storage is shared by the tabs of a profile: the
    cookie, the stored user and the marker are fields here, and another tab
    writing them is the `ShareStorage` step. */
module AuthContext {
  import opened Js
  import opened Models

  const AuthEventKey := "auth_event"

  /** The field the current-user query selects (`currentUser { ... }`). */
  const QueryField := "currentUser"

  /** The field the reconciliation effect reads (`data?.getCurrentUser`). */
  const FieldReadAsWritten := "getCurrentUser"

  datatype Cookie = Cookie(value: string, expiresDays: nat, secure: bool, sameSite: string)

  datatype Session = Session(
    cookie: Option<Cookie>,
    hasToken: bool,
    isAuthenticated: bool,
    user: Option<User>,
    storedUser: Option<User>,
    eventMarker: Option<int>)

  /** `!!readToken()`: `Cookies.get(...) || null`, so an empty value is no token. */
  predicate TokenPresent(c: Option<Cookie>) {
    c.Some? && c.value.value != ""
  }

  /** The provider's initial state from the cookie and the parsed stored
      user (a stored value that fails to parse reads as None). */
  function Init(cookie: Option<Cookie>, saved: Option<User>, marker: Option<int>): (s: Session)
    ensures s.hasToken == s.isAuthenticated == TokenPresent(cookie)
    ensures s.user == s.storedUser == saved
  {
    Session(cookie, TokenPresent(cookie), TokenPresent(cookie), saved, saved, marker)
  }

  // ---------------------------------------------------------------------
  // isAuthError

  datatype HttpResponse = HttpResponse(status: Option<int>)

  datatype NetworkError = NetworkError(statusCode: Option<int>, response: Option<HttpResponse>)

  /** A GraphQL error, reduced to `e?.extensions?.code`: None when the
      error, its extensions or the code is missing. */
  datatype GraphQLError = GraphQLError(code: Option<string>)

  datatype ApolloError = ApolloError(networkError: Option<NetworkError>, graphQLErrors: Option<seq<GraphQLError>>)

  /** `http?.statusCode || http?.response?.status`: a status code of 0 is
      falsy and defers to the response status. */
  function EffectiveStatus(http: Option<NetworkError>): (status: Option<int>)
    ensures status.Some? ==> http.Some?
    ensures http.Some? && http.value.statusCode.Some? && http.value.statusCode.value != 0 ==>
      status == http.value.statusCode
    ensures http.Some? && (http.value.statusCode.None? || http.value.statusCode == Some(0)) ==>
      status == (if http.value.response.Some? then http.value.response.value.status else None)
  {
    match http
    case None => None
    case Some(n) =>
      if n.statusCode.Some? && n.statusCode.value != 0 then n.statusCode
      else if n.response.Some? then n.response.value.status
      else None
  }

  predicate IsAuthCode(code: Option<string>) {
    code == Some("UNAUTHENTICATED") || code == Some("FORBIDDEN")
  }

  /** `(err.graphQLErrors || []).some(...)`. */
  function AnyAuthCode(errs: seq<GraphQLError>): (found: bool)
    ensures found <==> exists i :: 0 <= i < |errs| && IsAuthCode(errs[i].code)
  {
    if errs == [] then false
    else IsAuthCode(errs[0].code) || AnyAuthCode(errs[1..])
  }

  function ListedErrors(err: ApolloError): seq<GraphQLError> {
    if err.graphQLErrors.Some? then err.graphQLErrors.value else []
  }

  /** A true authentication failure: status 401 or 403, or a GraphQL error
      coded UNAUTHENTICATED or FORBIDDEN. No error is never one. */
  function IsAuthError(err: Option<ApolloError>): (auth: bool)
    ensures err.None? ==> !auth
    ensures err.Some? ==>
      (auth <==>
        || EffectiveStatus(err.value.networkError) == Some(401)
        || EffectiveStatus(err.value.networkError) == Some(403)
        || exists i :: 0 <= i < |ListedErrors(err.value)| && IsAuthCode(ListedErrors(err.value)[i].code))
  {
    match err
    case None => false
    case Some(e) =>
      var status := EffectiveStatus(e.networkError);
      if status == Some(401) || status == Some(403) then true
      else AnyAuthCode(ListedErrors(e))
  }

  /** A non-zero `statusCode` hides the response status: a 500 whose
      response says 401 is not an authentication failure, while a 0 defers
      to the response. */
  lemma StatusCodeShadowsResponseStatus()
    ensures !IsAuthError(Some(ApolloError(Some(NetworkError(Some(500), Some(HttpResponse(Some(401))))), None)))
    ensures IsAuthError(Some(ApolloError(Some(NetworkError(Some(0), Some(HttpResponse(Some(401))))), None)))
  {
  }

  // ---------------------------------------------------------------------
  // Reconciliation with the current-user query

  /** What the query hook reports: `data` keyed by the selected field
      names, and `error`. */
  datatype QueryResult = QueryResult(data: Option<map<string, User>>, error: Option<ApolloError>)

  /** `data?.<field>`. */
  function FieldOf(q: QueryResult, field: string): Option<User> {
    if q.data.Some? && field in q.data.value then Some(q.data.value[field]) else None
  }

  /** A result the current-user query can produce: its data holds no field
      but the selected one. */
  predicate FromQuery(q: QueryResult) {
    q.data.Some? ==> forall k :: k in q.data.value ==> k == QueryField
  }

  /** The effect at lines 65-88, reading the user from `field`. */
  function ReconcileReading(field: string, s: Session, q: QueryResult): Session {
    if !s.hasToken then
      s.(isAuthenticated := false, user := None, storedUser := None)
    else if FieldOf(q, field).Some? then
      s.(user := FieldOf(q, field), storedUser := FieldOf(q, field), isAuthenticated := true)
    else if IsAuthError(q.error) then
      s.(cookie := None, hasToken := false, isAuthenticated := false, user := None, storedUser := None)
    else
      s
  }

  /** The effect as written: it reads `getCurrentUser`, a field the query
      never returns. */
  function ReconcileAsWritten(s: Session, q: QueryResult): (r: Session)
    ensures FromQuery(q) ==> r == ReconcileReading(FieldReadAsWritten, s, q.(data := None))
  {
    ReconcileReading(FieldReadAsWritten, s, q)
  }

  /** As written, a fetched user is never adopted: a tab that learned of a
      token from a sibling stays signed out although the fetch succeeded. */
  lemma AsWrittenIgnoresFetchedUser(u: User)
    ensures var s := Session(Some(Cookie("t", 1, true, "lax")), true, false, None, None, None);
      var q := QueryResult(Some(map[QueryField := u]), None);
      && FromQuery(q)
      && ReconcileAsWritten(s, q) == s
      && !ReconcileAsWritten(s, q).isAuthenticated
      && Reconcile(s, q).isAuthenticated && Reconcile(s, q).user == Some(u)
  {
  }

  /** The two readings differ only when a user was fetched. */
  lemma AsWrittenAgreesWithoutData(s: Session, q: QueryResult)
    requires FromQuery(q) && FieldOf(q, QueryField).None?
    ensures ReconcileAsWritten(s, q) == Reconcile(s, q)
  {
  }

  /** As written, user data that arrives together with an authentication
      error (the query keeps both under its error policy) does not win: the
      tab is signed out. */
  lemma AsWrittenAuthErrorWinsOverData(s: Session, u: User, e: ApolloError, now: int)
    requires s.hasToken && IsAuthError(Some(e))
    ensures var q := QueryResult(Some(map[QueryField := u]), Some(e));
      && ReconcileAsWritten(s, q) == Logout(s, now).(eventMarker := s.eventMarker)
      && Reconcile(s, q).isAuthenticated && Reconcile(s, q).user == Some(u)
  {
  }

  /** The effect reading the field the query selects. */
  function Reconcile(s: Session, q: QueryResult): (r: Session)
    ensures !s.hasToken ==> !r.isAuthenticated && r.user.None? && r.storedUser.None?
    ensures s.hasToken && FieldOf(q, QueryField).Some? ==>
      r.isAuthenticated && r.user == r.storedUser == FieldOf(q, QueryField)
    ensures s.hasToken && FieldOf(q, QueryField).Some? ==>
      r == s.(isAuthenticated := true, user := FieldOf(q, QueryField), storedUser := FieldOf(q, QueryField))
  {
    ReconcileReading(QueryField, s, q)
  }

  /** Without a token the outcome is the same whatever was fetched, and
      nothing but the authentication flags and users changes. */
  lemma ReconcileWithoutToken(s: Session, q: QueryResult, q': QueryResult)
    requires !s.hasToken
    ensures Reconcile(s, q) == Reconcile(s, q')
    ensures Reconcile(s, q).cookie == s.cookie && Reconcile(s, q).eventMarker == s.eventMarker
    ensures !Reconcile(s, q).hasToken
  {
  }

  /** Fetched user data takes precedence over a simultaneous error. */
  lemma DataWinsOverError(s: Session, q: QueryResult, e: Option<ApolloError>)
    requires FieldOf(q, QueryField).Some?
    ensures Reconcile(s, q) == Reconcile(s, q.(error := e))
  {
  }

  /** A failure that is not an authentication failure changes nothing. */
  lemma TransientErrorKeepsSession(s: Session, q: QueryResult)
    requires s.hasToken && FieldOf(q, QueryField).None? && !IsAuthError(q.error)
    ensures Reconcile(s, q) == s
  {
  }

  /** An authentication failure signs the tab out exactly as `logout`
      would, except that no cross-tab event is written. */
  lemma AuthErrorActsAsLogout(s: Session, q: QueryResult, now: int)
    requires s.hasToken && FieldOf(q, QueryField).None? && IsAuthError(q.error)
    ensures Reconcile(s, q) == Logout(s, now).(eventMarker := s.eventMarker)
  {
  }

  /** Running the effect again on its own output changes nothing. */
  lemma ReconcileIdempotent(s: Session, q: QueryResult)
    ensures Reconcile(Reconcile(s, q), q) == Reconcile(s, q)
  {
  }

  /** After reconciliation a tab is authenticated only with a token, and a
      tab without a token holds no user. */
  predicate Settled(s: Session) {
    && (s.isAuthenticated ==> s.hasToken)
    && (!s.hasToken ==> s.user.None? && s.storedUser.None?)
  }

  lemma ReconcileSettles(s: Session, q: QueryResult)
    ensures Settled(Reconcile(s, q))
  {
  }

  // ---------------------------------------------------------------------
  // login, logout, storage events

  /** `login(token, userData)`: write the cookie (one day, `secure` only on
      https, SameSite lax), mark the tab authenticated, store the user and
      announce the change to other tabs. */
  function Login(s: Session, token: string, u: User, protocol: string, now: int): (r: Session)
    ensures r.cookie == Some(Cookie(token, 1, protocol == "https:", "lax"))
    ensures r.hasToken && r.isAuthenticated
    ensures r.user == r.storedUser == Some(u)
    ensures r.eventMarker == Some(now)
  {
    Session(Some(Cookie(token, 1, protocol == "https:", "lax")), true, true, Some(u), Some(u), Some(now))
  }

  /** `logout()`: clear the cookie, the flags and both copies of the user,
      and announce the change. */
  function Logout(s: Session, now: int): (r: Session)
    ensures r.cookie.None? && !TokenPresent(r.cookie) && !r.hasToken && !r.isAuthenticated
    ensures r.user.None? && r.storedUser.None?
    ensures r.eventMarker == Some(now)
  {
    Session(None, false, false, None, None, Some(now))
  }

  /** The outcome of login and logout does not depend on the prior state,
      and a second logout changes nothing but the marker. */
  lemma LoginLogoutForgetPriorState(s: Session, s': Session, token: string, u: User, protocol: string, t: int, t': int)
    ensures Login(s, token, u, protocol, t) == Login(s', token, u, protocol, t)
    ensures Logout(s, t) == Logout(s', t)
    ensures Logout(Logout(s, t), t') == Logout(s, t')
  {
  }

  /** The `storage` listener: only the auth event key matters, and then the
      tab re-reads the shared cookie. */
  function OnStorage(s: Session, key: string): (r: Session)
    ensures key != AuthEventKey ==> r == s
    ensures key == AuthEventKey ==> r == s.(hasToken := TokenPresent(s.cookie))
  {
    if key != AuthEventKey then s else s.(hasToken := TokenPresent(s.cookie))
  }

  /** Another tab wrote the shared cookie and local storage. */
  function ShareStorage(tab: Session, writer: Session): (r: Session)
    ensures r.cookie == writer.cookie && r.storedUser == writer.storedUser
    ensures r.eventMarker == writer.eventMarker
    ensures r.hasToken == tab.hasToken && r.isAuthenticated == tab.isAuthenticated && r.user == tab.user
  {
    tab.(cookie := writer.cookie, storedUser := writer.storedUser, eventMarker := writer.eventMarker)
  }

  /** A logout in one tab signs a sibling out once the sibling sees the
      storage event and reconciles, whatever its query reports. */
  lemma CrossTabLogout(a: Session, b: Session, now: int, q: QueryResult)
    ensures var b' := Reconcile(OnStorage(ShareStorage(b, Logout(a, now)), AuthEventKey), q);
      !b'.hasToken && !b'.isAuthenticated && b'.user.None? && b'.storedUser.None?
  {
  }

  /** A login in one tab signs a sibling in once the sibling sees the
      storage event and its current-user query returns the user. */
  lemma CrossTabLogin(a: Session, b: Session, token: string, u: User, protocol: string, now: int)
    requires token != ""
    ensures var b1 := OnStorage(ShareStorage(b, Login(a, token, u, protocol, now)), AuthEventKey);
      var b2 := Reconcile(b1, QueryResult(Some(map[QueryField := u]), None));
      b1.hasToken && b2.isAuthenticated && b2.user == Some(u)
  {
  }

  // ---------------------------------------------------------------------
  // Revalidation and refresh gates

  datatype Trigger = Focus | VisibilityChange(visible: bool)

  /** The focus and visibility listeners exist only while authenticated,
      `safeRefetch` returns early when offline, and a visibility change
      refetches only when the page became visible. */
  function RevalidationRefetches(s: Session, trigger: Trigger, online: bool): (refetch: bool)
    ensures refetch <==> s.isAuthenticated && online && (trigger == Focus || trigger == VisibilityChange(true))
  {
    s.isAuthenticated && online && (trigger.Focus? || trigger.visible)
  }

  /** `refresh()` refetches only when the tab holds a token. */
  function RefreshRefetches(s: Session): bool {
    s.hasToken
  }

  /** The query is skipped without a token (`skip: !hasToken`). */
  predicate QuerySkipped(s: Session) {
    !s.hasToken
  }

  /** `refresh` refetches exactly when the current-user query is active: it
      never refetches after a logout or an authentication failure, always
      after a login, and a settled authenticated tab can always refresh. */
  lemma RefreshFollowsQuery(s: Session, q: QueryResult, token: string, u: User, protocol: string, now: int)
    ensures RefreshRefetches(s) <==> !QuerySkipped(s)
    ensures !RefreshRefetches(Logout(s, now))
    ensures RefreshRefetches(Login(s, token, u, protocol, now))
    ensures s.hasToken && FieldOf(q, QueryField).None? && IsAuthError(q.error) ==> !RefreshRefetches(Reconcile(s, q))
    ensures Settled(s) && s.isAuthenticated ==> RefreshRefetches(s)
  {
  }

  /** A revalidation that fails for a transient reason leaves an
      authenticated session as it was. */
  lemma TransientRevalidationFailure(s: Session, trigger: Trigger, online: bool, q: QueryResult)
    requires RevalidationRefetches(s, trigger, online) && Settled(s)
    requires FieldOf(q, QueryField).None? && !IsAuthError(q.error)
    ensures Reconcile(s, q) == s && Reconcile(s, q).isAuthenticated
  {
  }

  // ---------------------------------------------------------------------
  // Runs of one tab

  /* A run is what one tab does on its own: its fetches, its own login and
     logout, the storage events it receives and the cookie's expiry. A
     sibling writing the shared storage is not a step of it; the lemmas
     after the run lemmas show what such a write does. */

  datatype Event =
    | Fetched(q: QueryResult)
    | LoggedIn(token: string, u: User, protocol: string, now: int)
    | LoggedOut(now: int)
    | StorageEvent(key: string)
    | CookieExpired

  function Step(s: Session, e: Event): Session {
    match e
    case Fetched(q) => ReconcileAsWritten(s, q)
    case LoggedIn(token, u, protocol, now) => Login(s, token, u, protocol, now)
    case LoggedOut(now) => Logout(s, now)
    case StorageEvent(key) => OnStorage(s, key)
    case CookieExpired => s.(cookie := None)
  }

  function Run(s: Session, events: seq<Event>): Session
    decreases |events|
  {
    if events == [] then s else Run(Step(s, events[0]), events[1..])
  }

  /** What every run of one tab keeps, the cookie's one-day expiry included: the
      user and its stored copy agree, and a token cookie is never set while
      `hasToken` is false. */
  predicate Coherent(s: Session) {
    s.user == s.storedUser && (TokenPresent(s.cookie) ==> s.hasToken)
  }

  /** `hasToken` says exactly whether a token cookie is set. */
  predicate TracksCookie(s: Session) {
    Coherent(s) && (s.hasToken ==> TokenPresent(s.cookie))
  }

  /** Logins use non-empty tokens, as the login and signup pages ensure. */
  predicate Permitted(e: Event) {
    e.LoggedIn? ==> e.token != ""
  }

  lemma {:induction false} RunStaysCoherent(s: Session, events: seq<Event>)
    requires Coherent(s)
    ensures Coherent(Run(s, events))
    decreases |events|
  {
    if events != [] {
      var s' := Step(s, events[0]);
      assert Coherent(s');
      RunStaysCoherent(s', events[1..]);
    }
  }

  /** Until the cookie expires, `hasToken` tracks the cookie exactly. */
  lemma {:induction false} RunTracksCookie(s: Session, events: seq<Event>)
    requires TracksCookie(s)
    requires forall i :: 0 <= i < |events| ==> Permitted(events[i]) && !events[i].CookieExpired?
    ensures TracksCookie(Run(s, events))
    decreases |events|
  {
    if events != [] {
      var s' := Step(s, events[0]);
      assert Permitted(events[0]) && !events[0].CookieExpired?;
      assert TracksCookie(s');
      assert forall i :: 0 <= i < |events[1..]| ==> Permitted(events[1..][i]) && !events[1..][i].CookieExpired? by {
        forall i | 0 <= i < |events[1..]| ensures Permitted(events[1..][i]) && !events[1..][i].CookieExpired? {
          assert events[1..][i] == events[i + 1];
        }
      }
      RunTracksCookie(s', events[1..]);
    }
  }

  /** The cookie's expiry writes no storage event, so only an auth-event
      storage write by a sibling would make the tab re-read the cookie: the
      tab stays authenticated with `hasToken` set and no cookie, until a
      fetch fails with an authentication error, which signs it out and
      restores the correspondence. */
  lemma ExpiryLeavesStaleFlag(s: Session, token: string, u: User, protocol: string, now: int, q: QueryResult)
    requires token != ""
    ensures var r := Run(s, [LoggedIn(token, u, protocol, now), CookieExpired]);
      && r.hasToken && r.isAuthenticated && !TokenPresent(r.cookie)
      && Coherent(r) && !TracksCookie(r)
      && (FromQuery(q) && IsAuthError(q.error) ==> TracksCookie(Step(r, Fetched(q))))
  {
    var s1 := Login(s, token, u, protocol, now);
    assert Run(s, [LoggedIn(token, u, protocol, now), CookieExpired]) == Run(s1, [CookieExpired]);
    assert Run(s1, [CookieExpired]) == Run(s1.(cookie := None), []);
  }

  /** A sibling's login breaks both invariants in a signed-out tab: the
      shared cookie holds a token while `hasToken` is still false, and the
      stored user is the sibling's while the tab's own is not. The storage
      event restores the flag but not the user, and the effect as written
      never adopts the fetched user, so unless the fetch fails with an
      authentication error the tab stays incoherent. The corrected effect
      restores both invariants once the user arrives. */
  lemma SiblingLoginBreaksCoherent(a: Session, b: Session, token: string, u: User, protocol: string, now: int, q: QueryResult)
    requires Coherent(b) && !b.hasToken && b.user.None?
    requires token != "" && FromQuery(q)
    ensures var b1 := ShareStorage(b, Login(a, token, u, protocol, now));
      var b2 := OnStorage(b1, AuthEventKey);
      && !Coherent(b1) && !Coherent(b2) && b2.hasToken
      && (!IsAuthError(q.error) ==> !Coherent(ReconcileAsWritten(b2, q)))
      && (FieldOf(q, QueryField).Some? ==> TracksCookie(Reconcile(b2, q)))
  {
  }

  /** A sibling's logout leaves the tab holding a user the storage no
      longer has; the storage event clears the flag and the next
      reconciliation, as written or corrected, clears the user and restores
      both invariants. */
  lemma SiblingLogoutRecovers(a: Session, b: Session, now: int, q: QueryResult)
    requires b.user.Some?
    ensures var b2 := OnStorage(ShareStorage(b, Logout(a, now)), AuthEventKey);
      && !Coherent(b2) && !b2.hasToken
      && TracksCookie(ReconcileAsWritten(b2, q)) && TracksCookie(Reconcile(b2, q))
  {
  }

  lemma InitCoherent(cookie: Option<Cookie>, saved: Option<User>, marker: Option<int>)
    ensures TracksCookie(Init(cookie, saved, marker))
  {
  }
}

=== FILE: auth_response.dfy ===
/** The completion callback shared by the login and signup pages: an
    ordered decision on the mutation's payload. Errors win; then a missing
    token or user is an unexpected response; otherwise the session starts
    and the app navigates home. */
module AuthResponse {
  import opened Js
  import opened Ui
  import opened Models

  /** `data?.login` / `data?.signup`: `errors`, `token`, `user`. */
  datatype AuthPayload = AuthPayload(errors: Option<seq<string>>, token: Option<string>, user: Option<User>)

  datatype Effect =
    | Snack(notice: Notice)
    | CallLogin(token: string, user: User)
    | Navigate(path: string, replace: bool)

  /** `payload?.errors || []`. */
  function ErrorsOf(payload: Option<AuthPayload>): seq<string> {
    if payload.Some? && payload.value.errors.Some? then payload.value.errors.value else []
  }

  predicate CompleteSession(payload: Option<AuthPayload>) {
    payload.Some? && Present(payload.value.token) && payload.value.user.Some?
  }

  function Snacks(notices: seq<Notice>): (r: seq<Effect>)
    ensures |r| == |notices|
    ensures forall i :: 0 <= i < |r| ==> r[i] == Snack(notices[i]) && !r[i].CallLogin?
  {
    seq(|notices|, i requires 0 <= i < |notices| => Snack(notices[i]))
  }

  function Classify(payload: Option<AuthPayload>, unexpected: string): (effects: seq<Effect>)
    ensures |ErrorsOf(payload)| > 0 ==> effects == Snacks(ErrorNotices(ErrorsOf(payload)))
    ensures |ErrorsOf(payload)| == 0 && !CompleteSession(payload) ==>
      effects == [Snack(Notice(unexpected, Error))]
    ensures (exists i :: 0 <= i < |effects| && effects[i].CallLogin?) <==>
      |ErrorsOf(payload)| == 0 && CompleteSession(payload)
    ensures |ErrorsOf(payload)| == 0 && CompleteSession(payload) ==>
      effects == [CallLogin(payload.value.token.value, payload.value.user.value), Navigate("/", true)]
  {
    var errs := ErrorsOf(payload);
    if |errs| > 0 then Snacks(ErrorNotices(errs))
    else if !CompleteSession(payload) then [Snack(Notice(unexpected, Error))]
    else
      var effects := [CallLogin(payload.value.token.value, payload.value.user.value), Navigate("/", true)];
      assert effects[0].CallLogin?;
      effects
  }
}

=== FILE: chip.dfy ===
/** The chip components: a label with a colour class. `StatusChip` and
    `PriorityChip` pick the class from the raw label and show the label
    humanised; `NumberChip` shows its label as it is on a neutral style. */
module Chip {
  import opened Utils

  datatype ChipView = ChipView(text: string, style: string)

  const DefaultStyle := "bg-gray-200"

  /** The status labels the switch names, in source order. */
  const StatusLabels: seq<string> :=
    ["open", "in_progress", "waiting_on_customer", "resolved", "closed", "reopened"]

  /** The priority labels the switch names, in source order. */
  const PriorityLabels: seq<string> := ["low", "normal", "high", "urgent"]

  function StatusStyle(name: string): (style: string)
    ensures style == DefaultStyle <==> name !in StatusLabels
  {
    match name
    case "open" => "bg-green-500 text-white"
    case "in_progress" => "bg-blue-500 text-white"
    case "waiting_on_customer" => "bg-yellow-400 text-gray-700"
    case "resolved" => "bg-purple-500 text-white"
    case "closed" => "bg-gray-400 text-white"
    case "reopened" => "bg-red-500 text-white"
    case _ => DefaultStyle
  }

  function PriorityStyle(name: string): (style: string)
    ensures style == DefaultStyle <==> name !in PriorityLabels
  {
    match name
    case "low" => "bg-green-500 text-white"
    case "normal" => "bg-blue-500 text-white"
    case "high" => "bg-orange-500 text-white"
    case "urgent" => "bg-red-600 text-white"
    case _ => DefaultStyle
  }

  /** The number chip's fixed style: the neutral background with dark text. */
  const NumberStyle := "bg-gray-200 text-gray-800"

  function NumberChip(name: string): (c: ChipView)
    ensures c.text == name
    ensures c.style == NumberStyle
  {
    ChipView(name, NumberStyle)
  }

  /** The status chip: the class is looked up with the raw label and the
      text is the humanised label, which never shows `_`. */
  function StatusChip(name: string): (c: ChipView)
    ensures c.text == Humanize(name) && c.style == StatusStyle(name)
    ensures |c.text| == |name| && forall i :: 0 <= i < |c.text| ==> c.text[i] != '_'
    ensures c.style == DefaultStyle <==> name !in StatusLabels
  {
    HumanizeNoUnderscore(name);
    ChipView(Humanize(name), StatusStyle(name))
  }

  /** The priority chip, built the same way from the priority table. */
  function PriorityChip(name: string): (c: ChipView)
    ensures c.text == Humanize(name) && c.style == PriorityStyle(name)
    ensures |c.text| == |name| && forall i :: 0 <= i < |c.text| ==> c.text[i] != '_'
    ensures c.style == DefaultStyle <==> name !in PriorityLabels
  {
    HumanizeNoUnderscore(name);
    ChipView(Humanize(name), PriorityStyle(name))
  }

  /** Distinct known statuses get distinct classes, and so do distinct
      known priorities. */
  lemma StylesDistinct()
    ensures forall i, j :: 0 <= i < j < |StatusLabels| ==>
      StatusStyle(StatusLabels[i]) != StatusStyle(StatusLabels[j])
    ensures forall i, j :: 0 <= i < j < |PriorityLabels| ==>
      PriorityStyle(PriorityLabels[i]) != PriorityStyle(PriorityLabels[j])
  {
  }

  /** "medium", which the ticket fixtures use, is not a known priority. */
  lemma MediumPriorityIsNeutral()
    ensures PriorityChip("medium").style == DefaultStyle
  {
  }

  /** The chips the card shows: the status class is chosen from the raw
      label and the text is the humanised label. */
  lemma StatusChipInProgress()
    ensures StatusChip("in_progress") == ChipView("In Progress", "bg-blue-500 text-white")
  {
    HumanizeInProgress();
  }
}

=== FILE: form.dfy ===
/** The new-ticket form: staging of attachments (`validateAndAdd`,
    `removeFileAt`, `clearAll`, `remainingSlots`), the four text fields,
    the submit gate, and the reset after a successful submission. */
module Form {
  import opened Js
  import opened Ui

  const AcceptedTypes: seq<string> := ["image/jpeg", "image/png", "application/pdf"]
  const MaxFileSize: nat := 10 * 1024 * 1024
  const MaxFiles: nat := 3

  /** A picked or dropped file, reduced to what the checks read. */
  datatype File = File(name: string, size: nat, mimeType: string, lastModified: int)

  // ---------------------------------------------------------------------
  // Identity key

  type Key = (string, nat, int)

  function KeyOf(f: File): Key {
    (f.name, f.size, f.lastModified)
  }

  /** The key as the component builds it: `${name}__${size}__${lastModified}`. */
  function KeyString(f: File): string {
    f.name + "__" + NatToString(f.size) + "__" + IntToString(f.lastModified)
  }

  /** If `p + "_" + q == p' + "_" + q'` and neither `q` nor `q'` holds an
      underscore, the split is the same. */
  lemma SplitAtLastUnderscore(p: string, q: string, p': string, q': string)
    requires forall i :: 0 <= i < |q| ==> q[i] != '_'
    requires forall i :: 0 <= i < |q'| ==> q'[i] != '_'
    requires p + "_" + q == p' + "_" + q'
    ensures p == p' && q == q'
  {
    var s := p + "_" + q;
    assert s == p' + "_" + q';
    assert s[|p|] == '_' && s[|p'|] == '_';
    assert forall i :: |p| < i < |s| ==> s[i] == q[i - |p| - 1];
    assert forall i :: |p'| < i < |s| ==> s[i] == q'[i - |p'| - 1];
    assert |p| == |p'|;
    assert p == s[..|p|] == p';
    assert q == s[|p| + 1..] == q';
  }

  /** Numerals never contain `_`, so the string key is injective: two files
      have the same string key exactly when their tuple keys agree. */
  lemma KeyStringInjective(f: File, g: File)
    ensures KeyString(f) == KeyString(g) <==> KeyOf(f) == KeyOf(g)
  {
    if KeyString(f) == KeyString(g) {
      var a, b := NatToString(f.size), IntToString(f.lastModified);
      var a', b' := NatToString(g.size), IntToString(g.lastModified);
      assert KeyString(f) == (f.name + "_" + "_" + a + "_") + "_" + b;
      assert KeyString(g) == (g.name + "_" + "_" + a' + "_") + "_" + b';
      SplitAtLastUnderscore(f.name + "_" + "_" + a + "_", b, g.name + "_" + "_" + a' + "_", b');
      assert f.name + "_" + "_" + a + "_" == (f.name + "_" + "_" + a) + "_" + "";
      assert g.name + "_" + "_" + a' + "_" == (g.name + "_" + "_" + a') + "_" + "";
      SplitAtLastUnderscore(f.name + "_" + "_" + a, "", g.name + "_" + "_" + a', "");
      SplitAtLastUnderscore(f.name + "_", a, g.name + "_", a');
      assert f.name == (f.name + "_")[..|f.name|];
      assert g.name == (g.name + "_")[..|g.name|];
      NatToStringInjective(f.size, g.size);
      IntToStringInjective(f.lastModified, g.lastModified);
    }
  }

  function StagedKeys(staged: seq<File>): set<Key> {
    set f | f in staged :: KeyOf(f)
  }

  // ---------------------------------------------------------------------
  // Per-file checks and messages

  datatype Rejection = AlreadyAdded | TooLarge | NotAllowed

  /** The first rule a candidate fails, in the order the loop tests them. */
  function FirstFailure(f: File, keys: set<Key>): Option<Rejection> {
    if KeyOf(f) in keys then Some(AlreadyAdded)
    else if f.size > MaxFileSize then Some(TooLarge)
    else if f.mimeType !in AcceptedTypes then Some(NotAllowed)
    else None
  }

  function RejectionNotice(f: File, why: Rejection): Notice {
    match why
    case AlreadyAdded => Notice(f.name + " already added", Warning)
    case TooLarge => Notice(f.name + " is too large. Max is 10MB.", Error)
    case NotAllowed => Notice(f.name + " is not allowed. Use JPG, PNG, or PDF.", Error)
  }

  function LimitNotice(): Notice {
    Notice("Limit is " + NatToString(MaxFiles) + " files", Error)
  }

  function OnlyMoreNotice(allowed: nat): Notice {
    Notice("Only " + NatToString(allowed) + " more file" + (if allowed > 1 then "s" else "") + " allowed", Warning)
  }

  /** The candidates that pass all three checks, in input order. */
  function Screened(incoming: seq<File>, keys: set<Key>): (next: seq<File>)
    ensures |next| <= |incoming|
  {
    if incoming == [] then []
    else
      var last := incoming[|incoming| - 1];
      Screened(incoming[..|incoming| - 1], keys) + (if FirstFailure(last, keys) == None then [last] else [])
  }

  /** One notice per failing candidate, naming its first failure, in input order. */
  function ScreenNotices(incoming: seq<File>, keys: set<Key>): (notes: seq<Notice>)
    ensures |notes| + |Screened(incoming, keys)| == |incoming|
  {
    if incoming == [] then []
    else
      var last := incoming[|incoming| - 1];
      var why := FirstFailure(last, keys);
      ScreenNotices(incoming[..|incoming| - 1], keys) + (if why.Some? then [RejectionNotice(last, why.value)] else [])
  }

  /** Screening is position by position: a batch screens as its two halves
      one after the other, so survivors and notices keep input order. */
  lemma {:induction false} ScreenAppend(a: seq<File>, b: seq<File>, keys: set<Key>)
    ensures Screened(a + b, keys) == Screened(a, keys) + Screened(b, keys)
    ensures ScreenNotices(a + b, keys) == ScreenNotices(a, keys) + ScreenNotices(b, keys)
    decreases |b|
  {
    if b == [] {
      assert a + b == a;
      assert Screened(b, keys) == [] && ScreenNotices(b, keys) == [];
      assert Screened(a, keys) + [] == Screened(a, keys);
      assert ScreenNotices(a, keys) + [] == ScreenNotices(a, keys);
    } else {
      var ab, b', last := a + b, b[..|b| - 1], b[|b| - 1];
      assert ab[..|ab| - 1] == a + b' && ab[|ab| - 1] == last;
      ScreenAppend(a, b', keys);
      ScreenLast(ab, keys);
      ScreenLast(b, keys);
      var kept := if FirstFailure(last, keys) == None then [last] else [];
      var said := if FirstFailure(last, keys).Some? then [RejectionNotice(last, FirstFailure(last, keys).value)] else [];
      assert Screened(ab, keys) == Screened(a + b', keys) + kept;
      assert Screened(b, keys) == Screened(b', keys) + kept;
      assert ScreenNotices(ab, keys) == ScreenNotices(a + b', keys) + said;
      assert ScreenNotices(b, keys) == ScreenNotices(b', keys) + said;
      AppendAssoc(Screened(a, keys), Screened(b', keys), kept);
      assert ScreenNotices(ab, keys) == ScreenNotices(a, keys) + (ScreenNotices(b', keys) + said);
    }
  }

  /** A candidate survives exactly when it is in the batch and fails no check. */
  lemma {:induction false} ScreenedMembers(incoming: seq<File>, keys: set<Key>)
    ensures forall f :: f in Screened(incoming, keys) <==> f in incoming && FirstFailure(f, keys) == None
    decreases |incoming|
  {
    if incoming != [] {
      var init, last := incoming[..|incoming| - 1], incoming[|incoming| - 1];
      ScreenedMembers(init, keys);
      ScreenLast(incoming, keys);
      assert incoming == init + [last];
    }
  }

  /** Every failing candidate is reported with its first failure, and every
      notice reports some failing candidate of the batch. */
  lemma {:induction false} NoticesNameFailures(incoming: seq<File>, keys: set<Key>)
    ensures forall f :: f in incoming && FirstFailure(f, keys).Some? ==>
      RejectionNotice(f, FirstFailure(f, keys).value) in ScreenNotices(incoming, keys)
    ensures forall n :: n in ScreenNotices(incoming, keys) ==>
      (exists f :: f in incoming && FirstFailure(f, keys).Some? && n == RejectionNotice(f, FirstFailure(f, keys).value))
    decreases |incoming|
  {
    if incoming != [] {
      var init, last := incoming[..|incoming| - 1], incoming[|incoming| - 1];
      NoticesNameFailures(init, keys);
      ScreenLast(incoming, keys);
      assert incoming == init + [last];
    }
  }

  lemma AppendAssoc<T>(x: seq<T>, y: seq<T>, z: seq<T>)
    ensures (x + y) + z == x + (y + z)
  {
  }

  /** One unfolding of both passes at the last candidate. */
  lemma ScreenLast(s: seq<File>, keys: set<Key>)
    requires s != []
    ensures var last := s[|s| - 1];
      && Screened(s, keys) == Screened(s[..|s| - 1], keys) + (if FirstFailure(last, keys) == None then [last] else [])
      && ScreenNotices(s, keys) == ScreenNotices(s[..|s| - 1], keys) +
           (if FirstFailure(last, keys).Some? then [RejectionNotice(last, FirstFailure(last, keys).value)] else [])
  {
  }

  /** A batch whose every candidate passes is kept whole and reported on
      not at all. */
  lemma {:induction false} ScreenAllPass(s: seq<File>, keys: set<Key>)
    requires forall i :: 0 <= i < |s| ==> FirstFailure(s[i], keys) == None
    ensures Screened(s, keys) == s && ScreenNotices(s, keys) == []
    decreases |s|
  {
    if s != [] {
      var init := s[..|s| - 1];
      assert forall i :: 0 <= i < |init| ==> init[i] == s[i];
      ScreenAllPass(init, keys);
      ScreenLast(s, keys);
      assert init + [s[|s| - 1]] == s;
    }
  }

  // ---------------------------------------------------------------------
  // validateAndAdd

  datatype AddResult = AddResult(staged: seq<File>, notices: seq<Notice>)

  function Max(a: int, b: int): int {
    if a < b then b else a
  }

  function Min(a: int, b: int): int {
    if a < b then a else b
  }

  /** `remainingSlots`: `MAX_FILES - selectedFiles.length` (negative when over). */
  function RemainingSlots(staged: seq<File>): (slots: int)
    ensures |staged| <= MaxFiles ==> 0 <= slots
    ensures slots == 0 <==> |staged| == MaxFiles
    ensures |staged| <= MaxFiles ==> slots == MaxFiles - |staged|
  {
    MaxFiles - |staged|
  }

  /** The staging rule: screen every candidate against the keys staged
      before the call, then cap the survivors at the remaining capacity. */
  function Add(staged: seq<File>, incoming: seq<File>): (r: AddResult)
    ensures |staged| <= |r.staged| && r.staged[..|staged|] == staged
    ensures |r.staged| - |staged| == Min(|Screened(incoming, StagedKeys(staged))|, Max(0, RemainingSlots(staged)))
    ensures |staged| <= MaxFiles ==> |r.staged| <= MaxFiles
    ensures r.staged[|staged|..] == Screened(incoming, StagedKeys(staged))[..|r.staged| - |staged|]
    ensures |staged| + |Screened(incoming, StagedKeys(staged))| <= MaxFiles ==>
      r == AddResult(staged + Screened(incoming, StagedKeys(staged)), ScreenNotices(incoming, StagedKeys(staged)))
    ensures var notes := ScreenNotices(incoming, StagedKeys(staged));
      |notes| <= |r.notices| <= |notes| + 1 && r.notices[..|notes|] == notes
  {
    if |incoming| == 0 then AddResult(staged, [])
    else
      var keys := StagedKeys(staged);
      var next := Screened(incoming, keys);
      var notes := ScreenNotices(incoming, keys);
      if |staged| + |next| > MaxFiles then
        var allowed := Max(0, MaxFiles - |staged|);
        if allowed == 0 then AddResult(staged, notes + [LimitNotice()])
        else AddResult(staged + next[..allowed], notes + [OnlyMoreNotice(allowed)])
      else AddResult(staged + next, notes)
  }

  /** `validateAndAdd` as written: one pass over the candidates with
      `continue` on the first failing check, then the capacity cap. */
  method ValidateAndAdd(staged: seq<File>, incoming: seq<File>) returns (r: AddResult)
    ensures r == Add(staged, incoming)
  {
    if |incoming| == 0 {
      return AddResult(staged, []);
    }
    var keys := StagedKeys(staged);
    var next: seq<File> := [];
    var notes: seq<Notice> := [];
    var i := 0;
    while i < |incoming|
      invariant 0 <= i <= |incoming|
      invariant next == Screened(incoming[..i], keys)
      invariant notes == ScreenNotices(incoming[..i], keys)
    {
      var file := incoming[i];
      assert incoming[..i + 1][..i] == incoming[..i];
      if KeyOf(file) in keys {
        notes := notes + [RejectionNotice(file, AlreadyAdded)];
      } else if file.size > MaxFileSize {
        notes := notes + [RejectionNotice(file, TooLarge)];
      } else if file.mimeType !in AcceptedTypes {
        notes := notes + [RejectionNotice(file, NotAllowed)];
      } else {
        next := next + [file];
      }
      i := i + 1;
    }
    assert incoming[..i] == incoming;
    if |staged| + |next| > MaxFiles {
      var allowed := Max(0, MaxFiles - |staged|);
      if allowed == 0 {
        return AddResult(staged, notes + [LimitNotice()]);
      }
      notes := notes + [OnlyMoreNotice(allowed)];
      next := next[..allowed];
    }
    r := AddResult(staged + next, notes);
  }

  // ---------------------------------------------------------------------
  // Properties of the staging rule

  /** A single candidate: the first failing rule alone is reported; a
      passing one is staged if there is room, else the limit is reported. */
  lemma SingleCandidate(staged: seq<File>, f: File)
    requires |staged| <= MaxFiles
    ensures var r := Add(staged, [f]);
      && (KeyOf(f) in StagedKeys(staged) ==> r == AddResult(staged, [RejectionNotice(f, AlreadyAdded)]))
      && (KeyOf(f) !in StagedKeys(staged) && f.size > MaxFileSize ==>
            r == AddResult(staged, [RejectionNotice(f, TooLarge)]))
      && (KeyOf(f) !in StagedKeys(staged) && f.size <= MaxFileSize && f.mimeType !in AcceptedTypes ==>
            r == AddResult(staged, [RejectionNotice(f, NotAllowed)]))
      && (FirstFailure(f, StagedKeys(staged)) == None && |staged| < MaxFiles ==> r == AddResult(staged + [f], []))
      && (FirstFailure(f, StagedKeys(staged)) == None && |staged| >= MaxFiles ==> r == AddResult(staged, [LimitNotice()]))
  {
    var keys := StagedKeys(staged);
    ScreenLast([f], keys);
    assert [f][..0] == [];
    if FirstFailure(f, keys) == None {
      assert Screened([f], keys) == [f] && ScreenNotices([f], keys) == [];
    } else {
      assert Screened([f], keys) == [];
      assert ScreenNotices([f], keys) == [RejectionNotice(f, FirstFailure(f, keys).value)];
    }
  }

  /** A file of exactly 10 MiB passes the size check; one byte more fails it. */
  lemma SizeBoundaryExact(staged: seq<File>, name: string, mimeType: string, lastModified: int)
    requires |staged| < MaxFiles && mimeType in AcceptedTypes
    requires (name, MaxFileSize, lastModified) !in StagedKeys(staged)
    requires (name, MaxFileSize + 1, lastModified) !in StagedKeys(staged)
    ensures Add(staged, [File(name, MaxFileSize, mimeType, lastModified)]).staged
         == staged + [File(name, MaxFileSize, mimeType, lastModified)]
    ensures Add(staged, [File(name, MaxFileSize + 1, mimeType, lastModified)])
         == AddResult(staged, [Notice(name + " is too large. Max is 10MB.", Error)])
  {
    SingleCandidate(staged, File(name, MaxFileSize, mimeType, lastModified));
    SingleCandidate(staged, File(name, MaxFileSize + 1, mimeType, lastModified));
  }

  /** Deduplication is only against files staged before the call: the same
      passing candidate twice in one batch is staged twice. */
  lemma SameBatchDuplicatesKept(staged: seq<File>, f: File)
    requires FirstFailure(f, StagedKeys(staged)) == None
    requires |staged| + 2 <= MaxFiles
    ensures Add(staged, [f, f]) == AddResult(staged + [f, f], [])
  {
    assert [f, f][..1] == [f];
    assert [f][..0] == [];
  }

  predicate DistinctKeys(files: seq<File>) {
    forall i, j :: 0 <= i < j < |files| ==> KeyOf(files[i]) != KeyOf(files[j])
  }

  /** Hence "no two staged files share a key" is not preserved by an add. */
  lemma DistinctKeysNotInvariant()
    ensures var f := File("a.png", 1024, "image/png", 1);
      DistinctKeys([]) && !DistinctKeys(Add([], [f, f]).staged)
  {
    var f := File("a.png", 1024, "image/png", 1);
    SameBatchDuplicatesKept([], f);
    assert Add([], [f, f]).staged[0] == Add([], [f, f]).staged[1];
  }

  /** When the passing candidates overflow the capacity: with no slot left
      nothing is staged and the limit is reported; otherwise the first
      `3 - |staged|` of them are staged, in input order. */
  lemma CapacityOverflow(staged: seq<File>, incoming: seq<File>)
    requires |incoming| > 0
    requires |staged| + |Screened(incoming, StagedKeys(staged))| > MaxFiles
    ensures var next := Screened(incoming, StagedKeys(staged));
      var r := Add(staged, incoming);
      && (|staged| >= MaxFiles ==>
            r == AddResult(staged, ScreenNotices(incoming, StagedKeys(staged)) + [LimitNotice()]))
      && (|staged| < MaxFiles ==>
            r == AddResult(staged + next[..MaxFiles - |staged|],
                           ScreenNotices(incoming, StagedKeys(staged)) + [OnlyMoreNotice(MaxFiles - |staged|)]))
  {
  }

  lemma OneMoreText()
    ensures OnlyMoreNotice(1) == Notice("Only 1 more file allowed", Warning)
  {
    assert NatToString(1) == "1";
  }

  /** Two staged files, three passing candidates: only the first is staged
      and the warning says one more file is allowed. */
  lemma TwoStagedThreeIncoming(a: File, b: File, c: File, d: File, e: File)
    requires forall f :: f in [c, d, e] ==> FirstFailure(f, StagedKeys([a, b])) == None
    ensures Add([a, b], [c, d, e]) == AddResult([a, b, c], [Notice("Only 1 more file allowed", Warning)])
  {
    var staged, incoming := [a, b], [c, d, e];
    assert forall i :: 0 <= i < |incoming| ==> FirstFailure(incoming[i], StagedKeys(staged)) == None;
    FillLastSlot(staged, incoming);
    OneMoreText();
    assert staged + incoming[..1] == [a, b, c];
  }

  /** With one slot left and at least two passing candidates, the first is
      staged and the rest are turned away with a single warning. */
  lemma FillLastSlot(staged: seq<File>, incoming: seq<File>)
    requires |staged| == MaxFiles - 1 && |incoming| >= 2
    requires forall i :: 0 <= i < |incoming| ==> FirstFailure(incoming[i], StagedKeys(staged)) == None
    ensures Add(staged, incoming) == AddResult(staged + incoming[..1], [OnlyMoreNotice(1)])
  {
    ScreenAllPass(incoming, StagedKeys(staged));
    CapacityOverflow(staged, incoming);
    assert [] + [OnlyMoreNotice(1)] == [OnlyMoreNotice(1)];
  }

  // ---------------------------------------------------------------------
  // removeFileAt, clearAll

  /** `prev.filter((_, i) => i !== index)`: an index outside the list
      removes nothing. */
  function RemoveFileAt(files: seq<File>, index: int): (r: seq<File>)
    ensures 0 <= index < |files| ==> r == files[..index] + files[index + 1..]
    ensures !(0 <= index < |files|) ==> r == files
    decreases |files|
  {
    if files == [] then []
    else (if index == 0 then [] else [files[0]]) + RemoveFileAt(files[1..], index - 1)
  }

  function ClearAll(files: seq<File>): (r: seq<File>)
    ensures |r| == 0
  {
    []
  }

  /** Removing a file frees exactly one slot. */
  lemma RemoveFreesSlot(files: seq<File>, index: int)
    requires 0 <= index < |files|
    ensures RemainingSlots(RemoveFileAt(files, index)) == RemainingSlots(files) + 1
  {
  }

  /** The user's staging actions: pick or drop files, remove one, remove all. */
  datatype StagingAction = AddFiles(incoming: seq<File>) | RemoveAt(index: int) | RemoveAll

  function Apply(files: seq<File>, a: StagingAction): seq<File> {
    match a
    case AddFiles(incoming) => Add(files, incoming).staged
    case RemoveAt(index) => RemoveFileAt(files, index)
    case RemoveAll => ClearAll(files)
  }

  function ApplyAll(files: seq<File>, actions: seq<StagingAction>): seq<File>
    decreases |actions|
  {
    if actions == [] then files else ApplyAll(Apply(files, actions[0]), actions[1..])
  }

  /** Whatever the user does, starting from at most three staged files there
      are never more than three. */
  lemma {:induction false} StagingStaysBounded(files: seq<File>, actions: seq<StagingAction>)
    requires |files| <= MaxFiles
    ensures |ApplyAll(files, actions)| <= MaxFiles
    decreases |actions|
  {
    if actions != [] {
      var next := Apply(files, actions[0]);
      assert |next| <= MaxFiles;
      StagingStaysBounded(next, actions[1..]);
    }
  }

  // ---------------------------------------------------------------------
  // Fields and submission

  datatype Field = Category | Priority | Title | Description

  datatype FormData = FormData(category: string, priority: string, title: string, description: string)

  const EmptyForm := FormData("", "", "", "")

  function FieldValue(d: FormData, f: Field): string {
    match f
    case Category => d.category
    case Priority => d.priority
    case Title => d.title
    case Description => d.description
  }

  /** `handleChange`: `{ ...prev, [name]: value }`. */
  function HandleChange(d: FormData, f: Field, value: string): (r: FormData)
    ensures FieldValue(r, f) == value
    ensures forall g :: g != f ==> FieldValue(r, g) == FieldValue(d, g)
  {
    match f
    case Category => d.(category := value)
    case Priority => d.(priority := value)
    case Title => d.(title := value)
    case Description => d.(description := value)
  }

  /** Submit is disabled while loading or while any field is empty. */
  function SubmitDisabled(loading: bool, d: FormData): (disabled: bool)
    ensures disabled <==> loading || exists f :: FieldValue(d, f) == ""
  {
    assert FieldValue(d, Category) == d.category && FieldValue(d, Priority) == d.priority;
    assert FieldValue(d, Title) == d.title && FieldValue(d, Description) == d.description;
    loading || d.category == "" || d.priority == "" || d.title == "" || d.description == ""
  }

  datatype FormState = FormState(data: FormData, files: seq<File>)

  /** What `createTicket` is called with: the fields plus the staged files. */
  datatype TicketInput = TicketInput(data: FormData, attachments: seq<File>)

  /** Whether the awaited `createTicket` promise resolved or rejected. */
  datatype Settled = Resolved | Rejected

  datatype SubmitResult = SubmitResult(sent: TicketInput, state: FormState, notices: seq<Notice>)

  /** `handleSubmit`: send the fields and files; on success clear both,
      on failure keep them and report "Failed to submit". */
  function HandleSubmit(st: FormState, outcome: Settled): (r: SubmitResult)
    ensures r.sent == TicketInput(st.data, st.files)
    ensures outcome == Resolved ==> r.state.files == [] && forall f :: FieldValue(r.state.data, f) == ""
    ensures outcome == Resolved ==> r.notices == []
    ensures outcome == Rejected ==> r.state == st && r.notices == [Notice("Failed to submit", Error)]
  {
    match outcome
    case Resolved => SubmitResult(TicketInput(st.data, st.files), FormState(EmptyForm, []), [])
    case Rejected => SubmitResult(TicketInput(st.data, st.files), st, [Notice("Failed to submit", Error)])
  }

  /** After a successful submission the form is back to its initial state:
      submit is disabled again and every slot is free. */
  lemma SubmitResetsForm(st: FormState, loading: bool)
    ensures var s := HandleSubmit(st, Resolved).state;
      SubmitDisabled(loading, s.data) && RemainingSlots(s.files) == MaxFiles
  {
    assert FieldValue(EmptyForm, Title) == "";
  }
}

=== FILE: home.dfy ===
/** The home page: the customer check, the heading, the new-ticket modal
    and the create-ticket completion callback. */
module Home {
  import opened Js
  import opened Ui
  import opened Models

  /** `user?.role === "customer"`. */
  predicate IsCustomer(u: Option<User>) {
    u.Some? && u.value.role == Some("customer")
  }

  function Heading(u: Option<User>): (h: string)
    ensures h == "Your Support Tickets" <==> IsCustomer(u)
    ensures !IsCustomer(u) ==> h == "Support Tickets"
  {
    if IsCustomer(u) then "Your Support Tickets" else "Support Tickets"
  }

  /** The "New Ticket" button is rendered for customers only. */
  function ShowsNewTicketButton(u: Option<User>): (shown: bool)
    ensures shown <==> IsCustomer(u)
  {
    IsCustomer(u)
  }

  /** The heading and the "New Ticket" button agree: the button shows
      exactly under the customer heading, and a user without a role sees
      neither. */
  lemma HeadingMatchesButton(u: Option<User>)
    ensures ShowsNewTicketButton(u) <==> Heading(u) == "Your Support Tickets"
    ensures !ShowsNewTicketButton(u) <==> Heading(u) == "Support Tickets"
    ensures u.Some? && u.value.role.None? ==> !ShowsNewTicketButton(u)
  {
  }

  function OpenModal(isOpen: bool): (r: bool)
    ensures r
  {
    true
  }

  function CloseModal(isOpen: bool): (r: bool)
    ensures !r
  {
    false
  }

  /** The created ticket: an object, so always truthy when present. */
  datatype CreatedTicket = CreatedTicket(id: Scalar)

  /** `result?.createTicket`: the created ticket and the errors. */
  datatype CreatePayload = CreatePayload(ticket: Option<CreatedTicket>, errors: Option<seq<string>>)

  /** The callback either completes, leaving the modal state and the
      notices, or throws: `errors.forEach` on a missing list is a TypeError. */
  datatype CallbackOutcome = Handled(isOpen: bool, notices: seq<Notice>) | Threw

  const CreatedNotice := Notice("Ticket created successfully", Success)

  function CreateTicketCallback(result: Option<CreatePayload>, isOpen: bool): (r: CallbackOutcome)
    ensures result.Some? && result.value.ticket.Some? ==> r == Handled(CloseModal(isOpen), [CreatedNotice])
    ensures result.Some? && result.value.ticket.None? && result.value.errors.Some? ==>
      r.Handled? && r.isOpen == isOpen && r.notices == ErrorNotices(result.value.errors.value)
    ensures r.Threw? <==> result.Some? && result.value.ticket.None? && result.value.errors.None?
    ensures result.None? ==> r == Handled(isOpen, [])
    ensures r.Handled? && r.isOpen != isOpen ==> !r.isOpen && r.notices == [CreatedNotice]
  {
    match result
    case None => Handled(isOpen, [])
    case Some(p) =>
      if p.ticket.Some? then Handled(CloseModal(isOpen), [CreatedNotice])
      else if p.errors.None? then Threw
      else Handled(isOpen, ErrorNotices(p.errors.value))
  }

  /** Opening the modal and then creating a ticket closes it again with one
      success notice; a rejected creation keeps it open with one notice per
      error. */
  lemma ModalRoundTrip(isOpen: bool, t: CreatedTicket, errs: seq<string>)
    ensures CreateTicketCallback(Some(CreatePayload(Some(t), None)), OpenModal(isOpen)) == Handled(false, [CreatedNotice])
    ensures var r := CreateTicketCallback(Some(CreatePayload(None, Some(errs))), OpenModal(isOpen));
      r.Handled? && r.isOpen && |r.notices| == |errs|
  {
  }
}

=== FILE: js.dfy ===
/** JavaScript value conventions the components rely on: optional values,
    truthiness of `||` and `!x`, the decimal text of a number, and the
    whitespace test behind `String.prototype.trim`. */
module Js {

  /** A value that may be `undefined`/`null` (None) or present (Some). */
  datatype Option<+T> = None | Some(value: T)

  /** A scalar prop such as an id or a ticket number. JavaScript tells
      `undefined` and `null` apart under `===`, so both are kept. */
  datatype Scalar = Undefined | Null | Num(n: int) | Str(s: string)

  /** `!!v` for a scalar: `0` and the empty string are falsy. */
  predicate Truthy(v: Scalar) {
    match v
    case Undefined => false
    case Null => false
    case Num(n) => n != 0
    case Str(s) => s != ""
  }

  /** `!!s` for an optional string. */
  predicate Present(s: Option<string>) {
    s.Some? && s.value != ""
  }

  /** `a || b` for optional strings whose fallback is a plain string. */
  function OrElse(a: Option<string>, fallback: string): (r: string)
    ensures Present(a) ==> r == a.value
    ensures !Present(a) ==> r == fallback
  {
    if Present(a) then a.value else fallback
  }

  function Digit(d: nat): (c: char)
    requires d < 10
    ensures '0' <= c <= '9'
  {
    ('0' as int + d) as char
  }

  /** `String(n)` for a non-negative integer below 1e21 (plain decimal). */
  function NatToString(n: nat): (r: string)
    ensures 1 <= |r|
    ensures forall i :: 0 <= i < |r| ==> '0' <= r[i] <= '9'
    ensures 10 <= n ==> 2 <= |r|
    decreases n
  {
    if n < 10 then [Digit(n)] else NatToString(n / 10) + [Digit(n % 10)]
  }

  /** `String(n)` for an integer below 1e21 in magnitude. */
  function IntToString(n: int): (r: string)
    ensures 1 <= |r|
    ensures forall i :: 0 <= i < |r| ==> r[i] == '-' || '0' <= r[i] <= '9'
  {
    if n < 0 then "-" + NatToString(-n) else NatToString(n)
  }

  /** A numeral of two or more digits is the numeral of `n / 10` followed
      by the last digit. */
  lemma NatToStringLast(n: nat)
    requires 10 <= n
    ensures var r := NatToString(n);
      r[..|r| - 1] == NatToString(n / 10) && r[|r| - 1] == Digit(n % 10)
  {
  }

  lemma {:induction false} NatToStringInjective(a: nat, b: nat)
    ensures NatToString(a) == NatToString(b) <==> a == b
    decreases a
  {
    if NatToString(a) == NatToString(b) && 10 <= a && 10 <= b {
      NatToStringLast(a);
      NatToStringLast(b);
      NatToStringInjective(a / 10, b / 10);
    }
  }

  lemma IntToStringInjective(a: int, b: int)
    ensures IntToString(a) == IntToString(b) <==> a == b
  {
    if IntToString(a) == IntToString(b) {
      if a < 0 && b < 0 {
        assert IntToString(a)[1..] == NatToString(-a);
        assert IntToString(b)[1..] == NatToString(-b);
        NatToStringInjective(-a, -b);
      } else if a >= 0 && b >= 0 {
        NatToStringInjective(a, b);
      } else {
        assert IntToString(a)[0] == IntToString(b)[0];
      }
    }
  }

  /** How React shows a scalar child: numbers in decimal, strings as they
      are, `undefined`/`null` as nothing. */
  function Display(v: Scalar): string {
    match v
    case Undefined => ""
    case Null => ""
    case Num(n) => IntToString(n)
    case Str(s) => s
  }

  /** The ECMAScript WhiteSpace and LineTerminator code points that
      `String.prototype.trim` strips. */
  predicate IsWhitespace(c: char) {
    || c == '\t' || c == '\n' || c == '\U{000B}' || c == '\U{000C}' || c == '\r'
    || c == ' ' || c == '\U{00A0}' || c == '\U{1680}'
    || ('\U{2000}' <= c <= '\U{200A}')
    || c == '\U{2028}' || c == '\U{2029}' || c == '\U{202F}' || c == '\U{205F}'
    || c == '\U{3000}' || c == '\U{FEFF}'
  }

  function TrimStart(s: string): (r: string)
    ensures |r| <= |s| && r == s[|s| - |r|..]
    ensures r == [] || !IsWhitespace(r[0])
    ensures forall i :: 0 <= i < |s| - |r| ==> IsWhitespace(s[i])
  {
    if s != [] && IsWhitespace(s[0]) then TrimStart(s[1..]) else s
  }

  function TrimEnd(s: string): (r: string)
    ensures |r| <= |s| && r == s[..|r|]
    ensures r == [] || !IsWhitespace(r[|r| - 1])
    ensures forall i :: |r| <= i < |s| ==> IsWhitespace(s[i])
  {
    if s != [] && IsWhitespace(s[|s| - 1]) then TrimEnd(s[..|s| - 1]) else s
  }

  /** `s.trim()`: leading and trailing whitespace removed. */
  function Trim(s: string): string {
    TrimEnd(TrimStart(s))
  }

  /** `!s.trim()` holds exactly when every character of `s` is whitespace. */
  lemma TrimEmptyIff(s: string)
    ensures Trim(s) == "" <==> forall i :: 0 <= i < |s| ==> IsWhitespace(s[i])
  {
    var t := TrimStart(s);
    if Trim(s) == "" {
      // a non-empty `t` starts with a non-whitespace character that TrimEnd keeps
      assert t == [];
    } else {
      var r := Trim(s);
      assert r == t[..|r|];
      assert !IsWhitespace(s[|s| - |t|]);
    }
  }
}

=== FILE: login.dfy ===
/** The login page: the submit gate and the login-response callback. */
module Login {
  import opened Js
  import opened AuthResponse
  import AuthContext
  import Models

  datatype LoginDetails = LoginDetails(email: string, password: string)

  /** `!loginDetails.email || !loginDetails.password`. */
  predicate IsDisabled(d: LoginDetails) {
    d.email == "" || d.password == ""
  }

  /** `handleSubmit` fires the mutation unless loading or disabled; the
      button is disabled under the same condition. */
  function SubmitFires(loading: bool, d: LoginDetails): (fires: bool)
    ensures fires <==> !loading && d.email != "" && d.password != ""
  {
    !(loading || IsDisabled(d))
  }

  /** The submit button: `disabled={loading || isDisabled}`. */
  predicate ButtonDisabled(loading: bool, d: LoginDetails) {
    loading || IsDisabled(d)
  }

  /** The handler's guard agrees with the button: submitting fires the
      mutation exactly when the button is enabled, and an enabled button
      sends non-empty credentials. */
  lemma GuardMatchesButton(loading: bool, d: LoginDetails)
    ensures SubmitFires(loading, d) <==> !ButtonDisabled(loading, d)
    ensures SubmitFires(loading, d) ==> |d.email| > 0 && |d.password| > 0
  {
  }

  const UnexpectedLogin := "Unexpected login response"

  function OnLoginCompleted(login: Option<AuthPayload>): seq<Effect> {
    Classify(login, UnexpectedLogin)
  }

  /** A complete login response hands the token and user to the
      provider's `login`, which leaves the tab authenticated as that user
      with the token cookie set. */
  lemma CompleteResponseSignsIn(s: AuthContext.Session, token: string, u: Models.User, protocol: string, now: int)
    requires token != ""
    ensures OnLoginCompleted(Some(AuthPayload(None, Some(token), Some(u)))) == [CallLogin(token, u), Navigate("/", true)]
    ensures var s' := AuthContext.Login(s, token, u, protocol, now);
      s'.isAuthenticated && s'.user == Some(u) && AuthContext.TokenPresent(s'.cookie)
  {
  }

  /** Errors take precedence: a payload with errors never starts a session,
      even when it also carries a token and a user. */
  lemma ErrorsPrecedeToken(errs: seq<string>, token: string, u: Models.User)
    requires |errs| > 0
    ensures var effects := OnLoginCompleted(Some(AuthPayload(Some(errs), Some(token), Some(u))));
      |effects| == |errs| && forall i :: 0 <= i < |effects| ==> !effects[i].CallLogin?
  {
  }
}

=== FILE: models.dfy ===
/** Records the server hands to the client, reduced to the fields the
    modelled logic reads. */
module Models {
  import opened Js

  /** The current user or a ticket's assignee as the GraphQL API returns
      it: `id`, `role`, `fullName`, `firstName`. Each may be missing. */
  datatype User = User(id: Scalar, role: Option<string>, fullName: Option<string>, firstName: Option<string>)
}

=== FILE: signup.dfy ===
/** The signup page: the submit gate and the signup-response callback. */
module Signup {
  import opened Js
  import opened AuthResponse
  import Ui

  datatype SignupDetails = SignupDetails(firstName: string, lastName: string, email: string, password: string)

  /** Any of the four fields empty. */
  predicate IsDisabled(d: SignupDetails) {
    d.firstName == "" || d.lastName == "" || d.email == "" || d.password == ""
  }

  function SubmitFires(loading: bool, d: SignupDetails): (fires: bool)
    ensures fires <==> !loading && d.firstName != "" && d.lastName != "" && d.email != "" && d.password != ""
  {
    !(loading || IsDisabled(d))
  }

  /** The submit button: `disabled={loading || isDisabled}`. */
  predicate ButtonDisabled(loading: bool, d: SignupDetails) {
    loading || IsDisabled(d)
  }

  /** The handler's guard agrees with the button: submitting fires the
      mutation exactly when the button is enabled, and an enabled button
      sends four non-empty fields. */
  lemma GuardMatchesButton(loading: bool, d: SignupDetails)
    ensures SubmitFires(loading, d) <==> !ButtonDisabled(loading, d)
    ensures SubmitFires(loading, d) ==> |d.firstName| > 0 && |d.lastName| > 0 && |d.email| > 0 && |d.password| > 0
  {
  }

  const UnexpectedSignup := "Unexpected signup response"

  function OnSignupCompleted(signup: Option<AuthPayload>): seq<Effect> {
    Classify(signup, UnexpectedSignup)
  }

  /** A signup with no payload at all reports the unexpected response once. */
  lemma MissingPayloadIsUnexpected()
    ensures OnSignupCompleted(None) == [Snack(Ui.Notice(UnexpectedSignup, Ui.Error))]
  {
  }
}

=== FILE: ticket_card.dfy ===
/** The ticket card's derived values: attachment count, category label,
    agent name, link target and the chip labels with their fallbacks. */
module TicketCard {
  import opened Js
  import opened Models
  import opened Utils
  import opened Chip

  /** A ticket as the list query returns it, reduced to what the card
      reads. `attachments` is None when it is not an array; `category` is
      None when missing. */
  datatype CardTicket = CardTicket(
    id: Scalar,
    number: Scalar,
    status: Option<string>,
    priority: Option<string>,
    category: Option<string>,
    assignedTo: Option<User>,
    attachments: Option<seq<Scalar>>)

  /** `ticket || {}`: a missing ticket reads every field as undefined. */
  function Fields(ticket: Option<CardTicket>): CardTicket {
    if ticket.Some? then ticket.value else CardTicket(Undefined, Undefined, None, None, None, None, None)
  }

  /** `Array.isArray(attachments) ? attachments.length : 0`. */
  function AttachmentCount(t: CardTicket): nat {
    if t.attachments.Some? then |t.attachments.value| else 0
  }

  /** `assignedTo?.fullName || assignedTo?.firstName || "Unassigned"`. */
  function AgentName(assignee: Option<User>): (name: string)
    ensures name != ""
    ensures assignee.Some? && Present(assignee.value.fullName) ==> name == assignee.value.fullName.value
    ensures assignee.Some? && !Present(assignee.value.fullName) && Present(assignee.value.firstName) ==>
      name == assignee.value.firstName.value
    ensures (assignee.None? || (!Present(assignee.value.fullName) && !Present(assignee.value.firstName))) ==>
      name == "Unassigned"
  {
    if assignee.None? then "Unassigned"
    else OrElse(assignee.value.fullName, OrElse(assignee.value.firstName, "Unassigned"))
  }

  /** `id ? "/ticket/" + id : "#"`. */
  function Href(id: Scalar): (href: string)
    ensures Truthy(id) ==> href == "/ticket/" + Display(id)
    ensures !Truthy(id) ==> href == "#"
  {
    if Truthy(id) then "/ticket/" + Display(id) else "#"
  }

  lemma HrefExamples()
    ensures Href(Num(0)) == "#" && Href(Str("")) == "#" && Href(Null) == "#"
    ensures Href(Num(1)) == "/ticket/1"
  {
    assert NatToString(1) == "1";
  }

  /** A truthy value never displays as nothing. */
  lemma DisplayTruthyNonEmpty(v: Scalar)
    requires Truthy(v)
    ensures Display(v) != ""
  {
  }

  /** The link is "#" exactly for a falsy id, and distinct numeric ids link
      to distinct tickets. */
  lemma HrefDistinct(id: Scalar, a: int, b: int)
    ensures Href(id) == "#" <==> !Truthy(id)
    ensures a != 0 && b != 0 ==> (Href(Num(a)) == Href(Num(b)) <==> a == b)
  {
    if Truthy(id) {
      assert Href(id)[0] == '/';
    }
    if a != 0 && b != 0 && Href(Num(a)) == Href(Num(b)) {
      var p := "/ticket/";
      assert Href(Num(a))[|p|..] == IntToString(a);
      assert Href(Num(b))[|p|..] == IntToString(b);
      IntToStringInjective(a, b);
    }
  }

  /** `humanize(category)`; None when `category` is missing, where the
      render throws. */
  function CategoryLabel(category: Option<string>): (text: Option<string>)
    ensures text.Some? <==> category.Some?
    ensures category.Some? ==> text.value == Humanize(category.value)
    ensures category.Some? ==> forall i :: 0 <= i < |text.value| ==> text.value[i] != '_'
  {
    if category.Some? then HumanizeNoUnderscore(category.value); Some(Humanize(category.value)) else None
  }

  /** The three chip labels: `number || "#"`, `status || "unknown"`,
      `priority || "unknown"`. */
  datatype ChipLabels = ChipLabels(number: Scalar, status: string, priority: string)

  function Labels(t: CardTicket): (c: ChipLabels)
    ensures Truthy(c.number) && c.status != "" && c.priority != ""
    ensures Truthy(t.number) ==> c.number == t.number
    ensures Present(t.status) ==> c.status == t.status.value
    ensures Present(t.priority) ==> c.priority == t.priority.value
    ensures !Truthy(t.number) ==> c.number == Str("#")
    ensures !Present(t.status) ==> c.status == "unknown"
    ensures !Present(t.priority) ==> c.priority == "unknown"
  {
    ChipLabels(if Truthy(t.number) then t.number else Str("#"), OrElse(t.status, "unknown"), OrElse(t.priority, "unknown"))
  }

  /** The number chip the card renders shows the number, or "#" when the
      number is falsy; it is never blank. */
  lemma NumberChipNeverBlank(t: CardTicket)
    ensures NumberChip(Display(Labels(t).number)).text != ""
    ensures Truthy(t.number) ==> NumberChip(Display(Labels(t).number)).text == Display(t.number)
    ensures !Truthy(t.number) ==> NumberChip(Display(Labels(t).number)).text == "#"
  {
    DisplayTruthyNonEmpty(Labels(t).number);
  }

  /** The card's `computed` values. */
  datatype Computed = Computed(attachmentCount: nat, categoryLabel: string, agentName: string, href: string)

  /** The `computed` block as written: `humanize(category)` throws when the
      category is missing (None here), which includes a missing ticket. */
  function Compute(ticket: Option<CardTicket>): (c: Option<Computed>)
    ensures c.None? <==> Fields(ticket).category.None?
    ensures ticket.None? ==> c.None?
    ensures c.Some? ==> c.value == ComputeCorrected(ticket)
  {
    var t := Fields(ticket);
    match CategoryLabel(t.category)
    case None => None
    case Some(text) => Some(Computed(AttachmentCount(t), text, AgentName(t.assignedTo), Href(t.id)))
  }

  /** The block with a missing category shown as an empty label, which the
      component test for a ticket with missing fields expects. */
  function ComputeCorrected(ticket: Option<CardTicket>): (c: Computed)
    ensures var t := Fields(ticket);
      && (t.attachments.Some? ==> c.attachmentCount == |t.attachments.value|)
      && (t.attachments.None? ==> c.attachmentCount == 0)
      && (t.category.Some? ==> c.categoryLabel == Humanize(t.category.value))
      && (t.category.None? ==> c.categoryLabel == "")
      && c.agentName == AgentName(t.assignedTo) && c.agentName != ""
      && c.href == Href(t.id)
      && (c.href == "#" <==> !Truthy(t.id))
      && (Truthy(t.id) ==> c.href == "/ticket/" + Display(t.id))
  {
    var t := Fields(ticket);
    HrefDistinct(t.id, 1, 1);
    Computed(AttachmentCount(t), if t.category.Some? then Humanize(t.category.value) else "",
             AgentName(t.assignedTo), Href(t.id))
  }

  /** The ticket of the component test "handles missing fields gracefully":
      as written the render throws on the missing category; corrected, it
      shows "#", an empty category, "Unassigned" and links to "#". */
  lemma MissingFieldsRender()
    ensures var t := CardTicket(Null, Null, None, None, None, None, None);
      && Compute(Some(t)).None?
      && ComputeCorrected(Some(t)) == Computed(0, "", "Unassigned", "#")
      && Labels(t).number == Str("#")
  {
  }

  /** The card in the component test: two attachments, category "billing",
      agent "Agent Smith", link "/ticket/1". */
  lemma SampleCard()
    ensures var t := CardTicket(Num(1), Str("T-100"), Some("open"), Some("high"), Some("billing"),
                                Some(User(Undefined, None, Some("Agent Smith"), None)),
                                Some([Str("a1"), Str("a2")]));
      Compute(Some(t)) == Some(Computed(2, "Billing", "Agent Smith", "/ticket/1"))
  {
    SampleCardFields(CardTicket(Num(1), Str("T-100"), Some("open"), Some("high"), Some("billing"),
                                Some(User(Undefined, None, Some("Agent Smith"), None)),
                                Some([Str("a1"), Str("a2")])));
  }

  /* The sample ticket as a parameter, so that each derived value is taken
     from its own contract rather than by unfolding on constants. */
  lemma SampleCardFields(t: CardTicket)
    requires t.id == Num(1) && t.category == Some("billing")
    requires t.assignedTo == Some(User(Undefined, None, Some("Agent Smith"), None))
    requires t.attachments.Some? && |t.attachments.value| == 2
    ensures Compute(Some(t)) == Some(Computed(2, "Billing", "Agent Smith", "/ticket/1"))
  {
    assert Fields(Some(t)) == t;
    assert AttachmentCount(t) == 2;
    HumanizeBilling();
    assert CategoryLabel(t.category) == Some("Billing");
    assert AgentName(t.assignedTo) == "Agent Smith";
    assert NatToString(1) == "1";
    assert Href(t.id) == "/ticket/1";
  }
}

=== FILE: ticket_page.dfy ===
/** The ticket detail page: who may comment, when the response form shows,
    the whitespace guard on submitting a comment, the draft reset after a
    comment is added, and the "Assign to Me" button. */
module TicketPage {
  import opened Js
  import opened Models

  /** A loaded ticket, reduced to what the decisions read. */
  datatype TicketDetail = TicketDetail(assignedTo: Option<User>, agentHasReplied: bool)

  /** `ticket?.assignedTo?.id`. */
  function AssigneeId(t: TicketDetail): Scalar {
    if t.assignedTo.Some? then t.assignedTo.value.id else Undefined
  }

  /** `currentUser?.id`. */
  function CurrentUserId(u: Option<User>): Scalar {
    if u.Some? then u.value.id else Undefined
  }

  /** `ticket?.assignedTo?.id === currentUser?.id`. */
  predicate AgentCanComment(t: TicketDetail, u: Option<User>) {
    AssigneeId(t) == CurrentUserId(u)
  }

  /** The response form shows for the assigned agent or once an agent has replied. */
  function ShowsResponseForm(t: TicketDetail, u: Option<User>): (shown: bool)
    ensures shown <==> AgentCanComment(t, u) || t.agentHasReplied
    ensures !t.agentHasReplied && t.assignedTo.Some? && u.Some? && t.assignedTo.value.id != u.value.id ==> !shown
  {
    AgentCanComment(t, u) || t.agentHasReplied
  }

  /** Strict equality of two missing ids holds: an unassigned ticket counts
      as "assigned" to a user whose id is missing, and the form shows. */
  lemma MissingIdsMatch(t: TicketDetail, u: User)
    requires t.assignedTo.None? && u.id == Undefined
    ensures AgentCanComment(t, Some(u)) && ShowsResponseForm(t, Some(u))
  {
  }

  /** `undefined === null` is false: an explicit null id does not match a
      missing assignee. */
  lemma NullIdDoesNotMatchMissing(t: TicketDetail, u: User)
    requires t.assignedTo.None? && u.id == Null
    ensures !AgentCanComment(t, Some(u))
  {
  }

  /** `handleSubmit`: `addComment` runs once unless the draft trims to "". */
  function SubmitCommentCalls(draft: string): (calls: nat)
    ensures calls <= 1
    ensures calls == 0 <==> Trim(draft) == ""
  {
    if Trim(draft) == "" then 0 else 1
  }

  /** A draft is sent exactly when some character is not whitespace. */
  lemma SubmitSendsNonBlank(draft: string)
    ensures SubmitCommentCalls(draft) == 1 <==> exists i :: 0 <= i < |draft| && !IsWhitespace(draft[i])
  {
    TrimEmptyIff(draft);
  }

  datatype PageState = PageState(draft: string, assigning: bool)

  /** The add-comment completion callback clears the draft. */
  function OnCommentAdded(st: PageState): (r: PageState)
    ensures r.draft == "" && r.assigning == st.assigning
    ensures SubmitCommentCalls(r.draft) == 0
  {
    st.(draft := "")
  }

  datatype Button = Button(text: string, disabled: bool)

  /** The "Assign to Me" button: only on an unassigned ticket and only for
      an agent; disabled with "Assigning..." while the mutation runs. */
  function AssignButton(t: TicketDetail, u: Option<User>, assigning: bool): (b: Option<Button>)
    ensures b.Some? <==> t.assignedTo.None? && u.Some? && u.value.role == Some("agent")
    ensures b.Some? ==> b.value.disabled == assigning
    ensures b.Some? ==> b.value.text == (if assigning then "Assigning..." else "Assign to Me")
  {
    if t.assignedTo.None? && u.Some? && u.value.role == Some("agent") then
      Some(Button(if assigning then "Assigning..." else "Assign to Me", assigning))
    else None
  }

  /** The button is never offered to a customer or to a signed-out visitor,
      and once the ticket is assigned to the agent who pressed it, the
      button is gone and that agent may comment. */
  lemma AssignButtonLifecycle(t: TicketDetail, u: User, assigning: bool)
    ensures u.role == Some("customer") ==> AssignButton(t, Some(u), assigning).None?
    ensures AssignButton(t, None, assigning).None?
    ensures var t' := t.(assignedTo := Some(u));
      AssignButton(t', Some(u), assigning).None? && ShowsResponseForm(t', Some(u))
  {
  }
}

=== FILE: ui.dfy ===
/** Snackbar messages: every user-facing report of the components is a
    `enqueueSnackbar(text, { variant })` call, kept here as a value. */
module Ui {

  datatype Variant = Success | Warning | Error

  datatype Notice = Notice(text: string, variant: Variant)

  /** One error notice per message, in order (`errs.forEach(err => enqueueSnackbar(err, ...))`). */
  function ErrorNotices(messages: seq<string>): (r: seq<Notice>)
    ensures |r| == |messages|
    ensures forall i :: 0 <= i < |r| ==> r[i] == Notice(messages[i], Error)
  {
    seq(|messages|, i requires 0 <= i < |messages| => Notice(messages[i], Error))
  }
}

=== FILE: utils.dfy ===
/** `humanize` from the utility module: `text.replace(/_/g, " ")` followed by
    `.replace(/\b\w/g, c => c.toUpperCase())`. Without the `u` flag `\w` is
    `[A-Za-z0-9_]`, and `\b\w` matches a word character whose left
    neighbour is not one (or that starts the string). */
module Utils {

  predicate IsWordChar(c: char) {
    ('A' <= c <= 'Z') || ('a' <= c <= 'z') || ('0' <= c <= '9') || c == '_'
  }

  predicate IsLower(c: char) {
    'a' <= c <= 'z'
  }

  /** `toUpperCase` of one `\w` character: only `a`..`z` change. */
  function ToUpper(c: char): (u: char)
    ensures IsWordChar(u) <==> IsWordChar(c)
    ensures !IsLower(u)
    ensures u != c <==> IsLower(c)
    ensures IsLower(c) ==> 'A' <= u <= 'Z' && u as int - 'A' as int == c as int - 'a' as int
  {
    if IsLower(c) then (c as int - 32) as char else c
  }

  /** `\b\w` matches at position `i` of `s`. */
  predicate AtWordStart(s: string, i: int)
    requires 0 <= i < |s|
  {
    IsWordChar(s[i]) && (i == 0 || !IsWordChar(s[i - 1]))
  }

  /** The first pass: every `_` becomes a space, nothing else changes. */
  function ReplaceUnderscores(s: string): (r: string)
    ensures |r| == |s|
    ensures forall i :: 0 <= i < |s| ==> r[i] == (if s[i] == '_' then ' ' else s[i])
  {
    if s == [] then [] else [if s[0] == '_' then ' ' else s[0]] + ReplaceUnderscores(s[1..])
  }

  /** The second pass as a left-to-right scan; `afterWord` says whether the
      character before `s` was a word character. */
  function CapitalizeFrom(s: string, afterWord: bool): (r: string)
    ensures |r| == |s|
    ensures 0 < |s| ==> r[0] == (if IsWordChar(s[0]) && !afterWord then ToUpper(s[0]) else s[0])
    ensures forall i :: 1 <= i < |s| ==> r[i] == (if AtWordStart(s, i) then ToUpper(s[i]) else s[i])
  {
    if s == [] then []
    else
      var rest := CapitalizeFrom(s[1..], IsWordChar(s[0]));
      assert forall i :: 2 <= i < |s| ==> (AtWordStart(s, i) <==> AtWordStart(s[1..], i - 1));
      [if IsWordChar(s[0]) && !afterWord then ToUpper(s[0]) else s[0]] + rest
  }

  /** Every `\b\w` match of `s` uppercased, everything else kept. */
  function CapitalizeWords(s: string): (r: string)
    ensures |r| == |s|
    ensures forall i :: 0 <= i < |s| ==> r[i] == (if AtWordStart(s, i) then ToUpper(s[i]) else s[i])
  {
    CapitalizeFrom(s, false)
  }

  function Humanize(text: string): (r: string)
    ensures |r| == |text|
  {
    CapitalizeWords(ReplaceUnderscores(text))
  }

  /** The output never contains `_`. */
  lemma HumanizeNoUnderscore(text: string)
    ensures forall i :: 0 <= i < |text| ==> Humanize(text)[i] != '_'
  {
    var s := ReplaceUnderscores(text);
    forall i | 0 <= i < |text| ensures Humanize(text)[i] != '_' {
      assert s[i] != '_';
    }
  }

  /** Position by position the character is kept, or `_` became a space, or
      a lowercase ASCII letter became uppercase; no letter is lowercased. */
  lemma HumanizeCharwise(text: string)
    ensures forall i :: 0 <= i < |text| ==>
      var c, d := text[i], Humanize(text)[i];
      || d == c
      || (c == '_' && d == ' ')
      || (IsLower(c) && d == ToUpper(c))
    ensures forall i :: 0 <= i < |text| && 'A' <= text[i] <= 'Z' ==> Humanize(text)[i] == text[i]
  {
  }

  /** A character changes in the second pass exactly when it is a lowercase
      letter at a word boundary of the space-replaced string. */
  lemma HumanizeUppercasesWordStarts(text: string)
    ensures var s := ReplaceUnderscores(text);
      forall i :: 0 <= i < |text| ==>
        && (AtWordStart(s, i) ==> Humanize(text)[i] == ToUpper(s[i]))
        && (Humanize(text)[i] != s[i] <==> AtWordStart(s, i) && IsLower(s[i]))
  {
  }

  /* The sample labels are passed as parameters equal to the literals so that
     the verifier reasons position by position instead of unfolding the
     recursive passes on constant arguments. */

  lemma ReplaceBilling(t: string)
    requires t == "billing"
    ensures ReplaceUnderscores(t) == "billing"
  {
    var b := ReplaceUnderscores(t);
    assert forall i :: 0 <= i < 7 ==> b[i] == "billing"[i];
  }

  lemma ReplaceInProgress(t: string)
    requires t == "in_progress"
    ensures ReplaceUnderscores(t) == "in progress"
  {
    var p := ReplaceUnderscores(t);
    assert forall i :: 0 <= i < 11 ==> p[i] == "in progress"[i];
  }

  lemma CapitalizeBilling(s: string)
    requires s == "billing"
    ensures CapitalizeWords(s) == "Billing"
  {
    assert AtWordStart(s, 0);
    assert forall i :: 1 <= i < 7 ==> !AtWordStart(s, i);
    var h := CapitalizeWords(s);
    assert forall i :: 0 <= i < 7 ==> h[i] == "Billing"[i];
  }

  lemma CapitalizeInProgress(s: string)
    requires s == "in progress"
    ensures CapitalizeWords(s) == "In Progress"
  {
    assert AtWordStart(s, 0) && AtWordStart(s, 3);
    assert forall i :: 0 <= i < 11 && i != 0 && i != 3 ==> !AtWordStart(s, i) || !IsLower(s[i]);
    var h := CapitalizeWords(s);
    assert forall i :: 0 <= i < 11 ==> h[i] == "In Progress"[i];
  }

  lemma HumanizeSamples(b: string, p: string)
    requires b == "billing" && p == "in_progress"
    ensures Humanize(b) == "Billing"
    ensures Humanize(p) == "In Progress"
  {
    ReplaceBilling(b);
    CapitalizeBilling(ReplaceUnderscores(b));
    ReplaceInProgress(p);
    CapitalizeInProgress(ReplaceUnderscores(p));
  }

  lemma HumanizeBilling()
    ensures Humanize("billing") == "Billing"
  {
    HumanizeSamples("billing", "in_progress");
  }

  lemma HumanizeInProgress()
    ensures Humanize("in_progress") == "In Progress"
  {
    HumanizeSamples("billing", "in_progress");
  }

  /** `humanize(humanize(s)) == humanize(s)`. */
  lemma HumanizeIdempotent(text: string)
    ensures Humanize(Humanize(text)) == Humanize(text)
  {
    var h := Humanize(text);
    var s := ReplaceUnderscores(text);
    HumanizeNoUnderscore(text);
    var s2 := ReplaceUnderscores(h);
    assert s2 == h;
    forall i | 0 <= i < |h| ensures AtWordStart(h, i) <==> AtWordStart(s, i) {
      assert IsWordChar(h[i]) <==> IsWordChar(s[i]);
      if i > 0 {
        assert IsWordChar(h[i - 1]) <==> IsWordChar(s[i - 1]);
      }
    }
  }
}
